=== FILE: README.md ===
# Music-player front end: gateway, caches, tables and dialogs in Dafny

This project models the logic parts of a browser client for a music library and a social feed. The rest of that client is UI layout. The modelled parts are:

- **The re-authenticating request gateway** (`baseQueryWithReauth`). It attaches the access token and sends the request. After a non-exempt 401 it either logs out, or makes one renewal call to `users/ref-token` (which goes out with the access token whenever one is held; see below), stores the new tokens and replays the request once. `Gateway.Execute` is a pure function of three inputs: the request, the session snapshot, and a script of the transport's answers. It returns how the call settles, the transport calls made, the session actions dispatched and the storage writes.
- **The endpoint tables** for users, songs and playlists. These are the request descriptors each endpoint hands to the gateway. Their contracts say which endpoints are exempt from refresh.
- **The list caches** (song, playlist and post reducers). `add*` replaces the whole list. `remove*` filters entries out by id.
- **The data table**: pagination state, the visible slice, and the records that both export buttons build.
- **The dialogs and small state machines**:
  - the song dialog, which validates its fields, resets, builds `FormData` and takes the audio from a drop;
  - the playlist dialog, which validates, resets, selects songs, shows checkboxes and builds the save payload;
  - the file drop zone, which makes previews, checks the size limit and fires callbacks;
  - the post card, which toggles a like and submits a comment;
  - the authentication page, which picks a schema, submits, and moves between form types.

Untyped JavaScript values are the `Js.Json` datatype. That module also defines JavaScript truthiness, property reads with and without optional chaining, object spread, and `String(v)` as a template literal uses it. Some things are parameters of the model:

- the transport's answers;
- what `URL.createObjectURL` returns;
- the email test of the validation library (`isEmail`);
- `JSON.stringify` (`jsonText`);
- whether a like or comment request succeeds.

### Behaviour worth knowing

The model follows the code in each case below. Only the first bullet, and the forgot-password form, run against an intent the code states.

- **A failed refresh.** The comment at `src/services/api.ts:56` says a failed refresh logs the user out. The guard at line 47 tests only that a refresh result exists. An error result has no top-level `data`, so line 49 dispatches `setTokens` with only the user. Line 50 then reads `accessToken` from `undefined` and throws. The invocation therefore rejects: nothing is stored, no logout happens, the request is not replayed, and no 401 is returned. See Findings.
- **The refresh exemption.** The test at `src/services/api.ts:28` exempts every `POST` whose first path segment is `users`. That covers login and registration, and also `users/forgot-password` and `users/reset-password`.
- **Logout and storage.** On logout (`src/services/api.ts:57-61`) the gateway only dispatches `resetTokens`. It never touches persistent storage itself. That reducer is not part of this model.
- **Renewal and reset bearers.** The base query copies a request's own headers before it runs `prepareHeaders`, and `prepareHeaders` sets `Authorization` whenever an access token is held (`src/services/api.ts:17-19`). So the renewal call's `Bearer <refreshToken>` (`src/services/api.ts:39-41`) goes out only when no access token is held. After the usual expired-token 401, `users/ref-token` receives the expired access token instead (`Gateway.RenewalSendsAccessToken`). The same replacement hits the explicit bearer of the reset-password request (`src/services/user.api.ts:40`, `UserApi.ResetPasswordBearer`).
- **The uploader's error line.** `src/component/FileUploader.tsx:131` renders `{error & <Typography>{helperT}</Typography>}`. `helperT` is never defined, and `&` does not short-circuit, so every render of the uploader throws a ReferenceError. Rendering is not modelled.
- **The forgot-password form** submits through the registration mutation (`createUser`), not `forgotPassword`. It is modelled that way. The form cannot be reached from the page, because the link to it is commented out (`Authenticate.ForgotPasswordUnreachable`).

## Model

| member | source | states |
|---|---|---|
| Gateway.PrepareHeaders | src/services/api.ts:13-21 | sets `Authorization: Bearer <token>` exactly when the access token is truthy, otherwise returns the headers untouched; other headers are kept |
| Gateway.FirstSegment | src/services/api.ts:28 | `url.split("/")[0]` is the longest slash-free prefix of the url |
| Gateway.Under | src/services/api.ts:28 | any path `<segment>/<rest>` has first segment `segment`, whatever `rest` contains |
| Gateway.ExemptRule | src/services/api.ts:28 | a request is exempt from refresh exactly when it is an object argument with method `POST` whose url is `users` or starts with `users/` |
| Gateway.Attached | src/services/api.ts:15-19 | an Authorization value is attached iff the access token is truthy, and it is then `Bearer <token>` |
| Gateway.RefreshArgs | src/services/api.ts:35-45 | the renewal request is a GET to `users/ref-token` whose own headers hold `Bearer <refreshToken>`, and it is not itself exempt. Whether that bearer is sent is stated by `Gateway.RenewalSendsAccessToken` |
| Gateway.Sent | src/services/api.ts:13-21 | the headers a call goes out with: an attached bearer replaces the request's own `Authorization`; every other header is the request's own |
| Gateway.SentIsPrepared | src/services/api.ts:13-21 | a call made under an access token sends exactly what `prepareHeaders` returns for the request's own headers |
| Gateway.RenewalSendsAccessToken | src/services/api.ts:35-45 | the renewal call sends `Bearer <accessToken>` whenever the access token is truthy, and `Bearer <refreshToken>` only when it is not |
| Gateway.RefreshTrigger | src/services/api.ts:28 | the refresh path starts exactly on a 401 error for a request that is not a POST under `users` |
| Gateway.RefreshPayload | src/services/api.ts:49 | the `setTokens` payload holds every own field of the renewal's data, with `user` replaced by the session's earlier user; error results contribute no fields |
| Gateway.RefreshWrites | src/services/api.ts:50-51 | two writes, `accessToken` then `refreshToken`, each storing the string form of that field of the renewal's data |
| Gateway.Execute | src/services/api.ts:25-67 | no refresh path (non-401 or exempt): one call, the answer unchanged, no dispatch or write. 401 without a refresh token: `resetTokens`, the original 401. Otherwise exactly one renewal call. A falsy renewal result logs out and returns the 401. Any existing result dispatches `setTokens` with the refresh data plus the user read earlier. Readable data stores both tokens, never the user, then replays once and returns the replay. Unreadable data rejects. At most three calls |
| Gateway.Renewal | src/services/api.ts:37-58 | after the renewal call: a falsy result logs out and returns the original answer; any other result dispatches `setTokens`, then either stores both tokens and replays, or rejects when its data is missing; the user is never stored |
| Gateway.FailedRefreshRejects | src/services/api.ts:47-58 | a renewal answered with an error status never logs out: `setTokens({user})` is dispatched and the call rejects |
| Gateway.FailedRefreshExample | src/services/api.ts:47-51 | concrete case: a 401 on `songs` whose renewal also gets a 401 rejects after two calls, without logging out |
| Gateway.ExecuteIntended | src/services/api.ts:47-58 | the corrected gateway never rejects. Without a refresh token, or after a renewal without truthy data, it logs out and returns the original 401 |
| Gateway.IntendedAgreesOutsideFailedRefresh | src/services/api.ts:47-58 | the code and the corrected gateway agree exactly on the inputs that are not a failed renewal, in both directions. A failed renewal is a renewal that actually runs and returns a result without truthy data |
| UserApi.GetUserById | src/services/user.api.ts:8-10 | the plain string `users/<id>`; a 401 on it takes the refresh path |
| UserApi.GetUsers | src/services/user.api.ts:11-13 | the plain string `users`; a 401 on it takes the refresh path |
| UserApi.CreateUser | src/services/user.api.ts:14-20 | POST `users` with the body unchanged; exempt from refresh |
| UserApi.LoginUser | src/services/user.api.ts:21-27 | POST `users/login`; exempt |
| UserApi.ForgotPassword | src/services/user.api.ts:28-34 | POST `users/forgot-password`; exempt |
| UserApi.ResetPassword | src/services/user.api.ts:35-42 | POST `users/reset-password` whose own headers carry `Bearer <token>` taken from its argument; exempt |
| UserApi.ResetPasswordBearer | src/services/user.api.ts:35-42 | the reset request sends the access token's bearer whenever one is held, and its own `token` only when none is |
| UserApi.UpdateUser | src/services/user.api.ts:43-49 | PUT `users/<_id>`: under `users` but not exempt, because it is not a POST. The argument must not be nullish, because the plain `._id` read throws on one |
| UserApi.PatchUser | src/services/user.api.ts:50-56 | PATCH `users/<_id>`; not exempt. The argument must not be nullish (plain `._id` read) |
| UserApi.LoginNeverRefreshes | src/services/user.api.ts:21-27 | a 401 on a login is handed back after one call with no session effect |
| SongApi.GetSongById | src/services/song.api.ts:8-10 | the plain string `songs/<id>`; not exempt |
| SongApi.GetSongs | src/services/song.api.ts:11-13 | the plain string `songs`; not exempt |
| SongApi.CreateSong | src/services/song.api.ts:14-20 | POST `songs` with the argument as body; not exempt |
| SongApi.UpdateSong | src/services/song.api.ts:21-27 | PUT `songs/<form's "id" entry>` with the form as body; not exempt |
| SongApi.PatchSong | src/services/song.api.ts:28-34 | PATCH `songs/<_id>`; not exempt. The argument must not be nullish (plain `._id` read) |
| SongApi.DeleteSong | src/services/song.api.ts:35-40 | DELETE `songs/<id>` with no body; not exempt |
| PlaylistApi.GetPlaylistById | src/services/playlist.api.ts:8-10 | the plain string `playlist/<id>`; not exempt |
| PlaylistApi.GetPlaylists | src/services/playlist.api.ts:11-13 | the plain string `playlist`; not exempt |
| PlaylistApi.CreatePlaylist | src/services/playlist.api.ts:14-20 | POST `playlist` with the body unchanged; not exempt |
| PlaylistApi.UpdatePlaylist | src/services/playlist.api.ts:21-27 | PUT `playlist/<_id>` with the whole playlist as body; not exempt. The argument must not be nullish (plain `._id` read) |
| PlaylistApi.PatchPlaylist | src/services/playlist.api.ts:28-34 | PATCH `playlist/<_id>`; not exempt. The argument must not be nullish (plain `._id` read) |
| PlaylistApi.DeletePlaylist | src/services/playlist.api.ts:35-40 | DELETE `playlist/<id>` with no body; not exempt |
| ListCache.Pushed | src/store/reducers/songReducer.ts:16-17 | pushing a payload's elements one by one onto an empty list reproduces the payload |
| ListCache.ReplaceAll | src/store/reducers/songReducer.ts:14-18 | the list becomes the payload; an absent payload leaves it empty |
| ListCache.Without | src/store/reducers/songReducer.ts:21 | the filter keeps exactly the entries whose key differs from the id, and no others |
| ListCache.WithoutConcat | src/store/reducers/songReducer.ts:21 | filtering distributes over concatenation, so the kept entries keep their relative order |
| ListCache.WithoutUnmatched | src/store/reducers/songReducer.ts:21 | when no entry carries the id, nothing is removed |
| ListCache.WithoutIdempotent | src/store/reducers/songReducer.ts:21 | filtering twice is filtering once |
| SongReducer.InitialState | src/store/reducers/songReducer.ts:6-8 | the song list starts empty |
| SongReducer.AddSong | src/store/reducers/songReducer.ts:14-18 | the list is replaced by the payload, in order; an absent payload empties it |
| SongReducer.RemoveSong | src/store/reducers/songReducer.ts:20-22 | no remaining song has the id; every song with another id is kept |
| SongReducer.AddSongReplaces | src/store/reducers/songReducer.ts:14-18 | the previous list plays no part: `addSong` replaces rather than appends |
| SongReducer.AddSongIdempotent | src/store/reducers/songReducer.ts:14-18 | applying the same payload twice equals applying it once |
| SongReducer.RemoveSongKeepsOrder | src/store/reducers/songReducer.ts:21 | the kept songs stay in their original relative order |
| SongReducer.RemoveSongAbsentId | src/store/reducers/songReducer.ts:21 | an absent id changes nothing |
| SongReducer.RemoveSongIdempotent | src/store/reducers/songReducer.ts:21 | removing twice is removing once |
| PlaylistReducer.InitialState | src/store/reducers/playlistReducer.ts:4-6 | the playlist list starts empty |
| PlaylistReducer.AddPlaylist | src/store/reducers/playlistReducer.ts:12-16 | the list is replaced by the payload, in order; an absent payload empties it |
| PlaylistReducer.RemovePlaylist | src/store/reducers/playlistReducer.ts:18-20 | no remaining playlist has the id; every playlist with another id is kept |
| PlaylistReducer.AddPlaylistReplaces | src/store/reducers/playlistReducer.ts:12-16 | `addPlaylist` replaces rather than appends |
| PlaylistReducer.AddPlaylistIdempotent | src/store/reducers/playlistReducer.ts:12-16 | applying the same payload twice equals applying it once |
| PlaylistReducer.RemovePlaylistKeepsOrder | src/store/reducers/playlistReducer.ts:19 | the other playlists stay in order |
| PlaylistReducer.RemovePlaylistAbsentId | src/store/reducers/playlistReducer.ts:19 | an absent id changes nothing |
| PlaylistReducer.RemovePlaylistIdempotent | src/store/reducers/playlistReducer.ts:19 | removing twice is removing once |
| PostReducer.PostsOf | src/store/reducers/postReducer.ts:26 | `payload?.data?.data` exists exactly when all three levels are present |
| PostReducer.InitialState | src/store/reducers/postReducer.ts:15-18 | no posts, not loading |
| PostReducer.AddPost | src/store/reducers/postReducer.ts:24-28 | the posts become `payload.data.data` in order, or empty when any level is missing; `loading` is unchanged |
| PostReducer.RemovePost | src/store/reducers/postReducer.ts:30-32 | drops exactly the posts with that id and keeps the rest; `loading` is unchanged |
| PostReducer.SetLoading | src/store/reducers/postReducer.ts:33-35 | sets `loading` and leaves the posts unchanged |
| PostReducer.AddPostIdempotent | src/store/reducers/postReducer.ts:24-28 | applying the same payload twice equals applying it once |
| PostReducer.RemovePostKeepsOrder | src/store/reducers/postReducer.ts:31 | the kept posts stay in order |
| PostReducer.RemovePostIdempotent | src/store/reducers/postReducer.ts:31 | removing twice is removing once |
| DataTable.InitialPager | src/component/DataTable.tsx:42-43 | page 0, 10 rows per page |
| DataTable.ChangePage | src/component/DataTable.tsx:45 | the page changes and rows-per-page does not |
| DataTable.ChangeRowsPerPage | src/component/DataTable.tsx:46-49 | the new size is taken and the page resets to 0 |
| DataTable.Slice | src/component/DataTable.tsx:90 | `slice` clamps both bounds to the length and is empty when the start is past the end |
| DataTable.Visible | src/component/DataTable.tsx:90 | at most `rowsPerPage` rows, exactly `data[page*rpp .. min(len, page*rpp+rpp))`, none once `page*rpp >= len` |
| DataTable.AppendPage | src/component/DataTable.tsx:90 | a page continues the prefix that ends where the page starts |
| DataTable.FirstPagesArePrefix | src/component/DataTable.tsx:90 | pages `0..k-1` laid end to end form the prefix of the data up to `k*rpp` |
| DataTable.Cell | src/component/DataTable.tsx:53 | a truthy field value is kept and any falsy one becomes `""`. The row must not be nullish, because the plain `row[field]` read throws on one |
| DataTable.FieldOrder | src/component/DataTable.tsx:53 | keys defined in a given order end up distinct, covering exactly the defined names, ordered by where each was first defined (`FirstIndex`); with no repeats the order is the definition order |
| DataTable.ExportRecord | src/component/DataTable.tsx:52-54 | a record's keys are the column fields in order of first appearance, and each entry holds that field's cell |
| DataTable.ExportRecordInColumnOrder | src/component/DataTable.tsx:52-54 | with distinct fields, entry `i` is column `i`'s field with its cell |
| DataTable.ExportRecords | src/component/DataTable.tsx:52-54 | one record per data row, in order |
| DataTable.ExportToCsv | src/component/DataTable.tsx:51-59 | writes `data.csv` with one record per data row, record `i` being row `i`'s export record; no row may be nullish |
| DataTable.ExportToExcel | src/component/DataTable.tsx:61-69 | writes `data.xlsx` with one record per data row, record `i` being row `i`'s export record; no row may be nullish |
| DataTable.ExportsAgree | src/component/DataTable.tsx:52-54 | the CSV and Excel exports build identical record lists |
| Form.Get | src/services/song.api.ts:23 | `FormData.get` returns the first entry with that name, or null when there is none |
| SongDialog.ResetForm | src/pages/song/manipulate.tsx:69-82 | editing uses the song's own values; otherwise five empty strings and no audio |
| SongDialog.ValidationErrors | src/pages/song/manipulate.tsx:21-28 | a field is rejected exactly when it is an empty text field or the missing audio |
| SongDialog.BuildFormData | src/pages/song/manipulate.tsx:89-105 | title, artist, album, genre, lyrics in order. `id` is present iff editing, holding the song's id. `audioUrl` is present iff truthy, and comes last. No other names |
| SongDialog.Submit | src/pages/song/manipulate.tsx:89-108 | the parent receives exactly one `FormData` when validation passes, and none otherwise |
| SongDialog.DropAudio | src/pages/song/manipulate.tsx:206-211 | the field takes the first dropped file; an empty drop changes nothing |
| SongDialog.EditSubmitAddressesSong | src/pages/song/manipulate.tsx:99-101 | the edit form's `id` entry reads back as the song's id, so `updateSong` addresses `songs/<that id>` |
| SongDialog.NewSongHasNoId | src/pages/song/manipulate.tsx:99-101 | a new song's form has no `id` entry |
| SongDialog.AudioAfterUpload | src/pages/song/manipulate.tsx:206-211 | after a drop on the audio uploader, the field is the first dropped file iff some file was within the size limit |
| SongDialog.RepeatedDrops | src/component/FileUploader.tsx:66 | repeating the same non-empty drop callback changes nothing more |
| PlaylistDialog.ResetForm | src/pages/playlist/manipulate.tsx:88-97 | editing uses the playlist's own fields; otherwise `name` and `description` are empty |
| PlaylistDialog.ValidationErrors | src/pages/playlist/manipulate.tsx:25-28 | `name` and `description` are each rejected exactly when they are not a non-empty string |
| PlaylistDialog.SelectSongs | src/pages/playlist/manipulate.tsx:104-107 | the new value replaces the whole selection |
| PlaylistDialog.CheckedAfterSelection | src/pages/playlist/manipulate.tsx:172 | a song's checkbox is checked iff its id is in the selection |
| PlaylistDialog.IdsToJson | src/pages/playlist/manipulate.tsx:116 | the selection, as the `songs` array of the payload, element by element |
| PlaylistDialog.IdsToJsonInjective | src/pages/playlist/manipulate.tsx:116 | the `songs` array loses nothing: two selections that encode alike are equal |
| PlaylistDialog.Save | src/pages/playlist/manipulate.tsx:114-118 | when validation passes: `songs` is the selection; `_id` is the edited playlist's iff editing; other fields pass through; the selection is cleared |
| PlaylistDialog.SaveRoundTrip | src/pages/playlist/manipulate.tsx:114-118 | a valid save always happens. Its `songs` equal the encoding of a list exactly when that list is the selection made. Afterwards no checkbox is checked |
| FileUploader.PreviewOf | src/component/FileUploader.tsx:40-67 | over 52,428,800 bytes gives no url; within the limit, a url iff the type starts with image, video or audio and the URL call did not throw |
| FileUploader.CountWithin | src/component/FileUploader.tsx:41-46 | counts the files within the limit; zero iff every file is too large |
| FileUploader.Alerts | src/component/FileUploader.tsx:41-45 | one alert per oversized file, each the too-large message of an oversized file |
| FileUploader.AlertsConcat | src/component/FileUploader.tsx:40-46 | the alerts of two batches are the first batch's followed by the second's, so they come in file order |
| FileUploader.AlertsSingle | src/component/FileUploader.tsx:41-46 | a single file raises its too-large message exactly when it is over the limit |
| FileUploader.OnDrop | src/component/FileUploader.tsx:39-71 | one preview per file, in order, replacing the old ones. `onDropFile` fires once per within-limit file, each time with the full list. The alerts are exactly `Alerts(files)`: one too-large message per oversized file, in file order. Callbacks plus alerts equal the number of files |
| PostCard.MyLike | src/component/postCard.tsx:62 | the first like whose user is the current user, if any |
| PostCard.InitialState | src/component/postCard.tsx:62-64 | `liked` iff some like belongs to the current user; the comment box is empty |
| PostCard.ToggleLike | src/component/postCard.tsx:69-81 | when liked, deletes the found like, otherwise creates one. On success `liked` flips and the parent reloads. On failure nothing changes |
| PostCard.TypeComment | src/component/postCard.tsx:128 | the input takes the typed text |
| PostCard.SubmitComment | src/component/postCard.tsx:83-92 | sends `{me, post, current input}`; success clears the input and reloads; failure keeps it |
| PostCard.ToggleTwice | src/component/postCard.tsx:69-81 | two successful toggles restore `liked`, with one create and one delete |
| Authenticate.InitialFormType | src/pages/authenticate/index.tsx:79-81 | the page starts on the login form |
| Authenticate.SchemaFor | src/pages/authenticate/index.tsx:87-92 | login gets the login schema, register the register schema, anything else the forgot-password schema |
| Authenticate.ValidationErrors | src/pages/authenticate/index.tsx:24-48 | login: valid email and a password of at least 6 UTF-16 code units. Register adds name, username and a matching confirmation. Forgot-password: email only |
| Authenticate.AstralPasswordLongEnough | src/pages/authenticate/index.tsx:26-29 | three characters outside the Basic Multilingual Plane already meet the six-unit minimum |
| Authenticate.LoginSucceeded | src/pages/authenticate/index.tsx:108-114 | dispatches `setTokens(data)`. Readable data stores the access token, the refresh token and the user's JSON text, in that order, then goes to `/post`. Missing data stores nothing and stays |
| Authenticate.Submit | src/pages/authenticate/index.tsx:102-149 | validation gates the request. Login sends `loginUser`, the others `createUser`. Only a successful login dispatches tokens; with readable data it stores both tokens and the user, then navigates to `/post`. With missing data it throws after the dispatch: nothing is stored and there is no navigation. Only a successful register or reset switches to login |
| Authenticate.SubmitRequestsExempt | src/pages/authenticate/index.tsx:107-138 | every request the page sends is exempt from the gateway's refresh |
| Authenticate.Step | src/pages/authenticate/index.tsx:177-191 | the Register button works from login, the Login buttons from the others; no event enters the forgot-password form |
| Authenticate.ForgotPasswordUnreachable | src/pages/authenticate/index.tsx:177-191 | starting anywhere but the forgot-password form, no sequence of events reaches it |

## Findings

| source | as written | input that shows it | evidently intended | confidence | as-written member | corrected member |
|---|---|---|---|---|---|---|
| src/services/api.ts:47-57 | the guard tests only that the refresh result exists. A renewal answered with an error still dispatches `setTokens({user})`, then throws reading `refreshResult.data.accessToken` | a 401 on `songs`, then a 401 from `users/ref-token` | log out with `resetTokens` and return the original 401 (the comment at line 56) | not executed; high | Gateway.FailedRefreshRejects | Gateway.ExecuteIntended |

`Gateway.Execute` is the model of the code as written. The endpoint properties are stated through `Gateway.Exempt` and `Gateway.NeedsRefresh`, and both gateways share those. `Gateway.IntendedAgreesOutsideFailedRefresh` shows that the two gateways differ exactly on the failed-refresh inputs.

## Left out

- DataTable.Cell: the TypeError a nullish row raises, which aborts the export, is not modelled. The preconditions of `Cell`, `ExportRecord`, `ExportRecords`, `ExportToCsv`, `ExportToExcel` and `ExportsAgree` exclude such rows. A string or array row reads `length` and index fields in JavaScript; the model reads every field of a non-object as `undefined`.
- DataTable.ExportRecord: keys keep their order of first definition. JavaScript puts integer-like keys such as `"0"` first, in numeric order, and the model does not; such keys would reorder the sheet's columns. Turning records into CSV or spreadsheet cells is not modelled.

- Rendering, layout, animation, toasts and navigation beyond the `/post` target of a login are not modelled. They have no statable behaviour.
- The page orchestrators, the post, like and comment endpoint tables, the store wiring and the post block are not modelled. The post, like and comment endpoints bypass the gateway.
- The session reducer behind `setTokens` and `resetTokens` is not modelled. Its actions are recorded, not interpreted, so the access token seen by a replay is an input (`Script.replayToken`).
- Each call records its arguments and the value `prepareHeaders` attaches. `Gateway.Sent` combines the two: the attached value replaces the request's own `Authorization`. The order in which the browser's `Headers` object lists keys is not modelled.
- The base URL `http://localhost:5000/api/` and the HTTP exchange itself are not modelled. The transport's answers are inputs.
- Concurrency is not modelled. Each invocation reads one session snapshot, and simultaneous 401s are independent invocations.
- Object spread of a string or array is modelled as contributing no properties. The real spread copies index properties.
- Numbers are integers: there is no NaN and no fractions. A number that is `0` is falsy.
- `parseInt` in the rows-per-page handler is not modelled. The new size is given as a natural number.
- The validation library's casting of non-string values is not modelled. A missing or non-string field counts as empty.
- react-dropzone's own `maxSize` and `accept` filtering is not modelled. The drop handler sees whatever list it is given.
- `URL.revokeObjectURL` on unmount is not modelled.
- The TypeError that `UpdateUser`, `PatchUser`, `PatchSong`, `UpdatePlaylist` and `PatchPlaylist` raise on a nullish argument is not modelled. Their preconditions exclude such an argument, as the argument types do. `ResetPassword` reads `token` through optional chaining and keeps every argument.
- FileUploader.OnDrop: the alerts and the callbacks are kept as two separate lists, each in file order. The order in which the two interleave is not kept.

=== FILE: authenticate.dfy ===
/** The authentication page: which schema validates which form, what a
    submit does in each form, and how the form type moves. `isEmail` stands
    for the email test of the validation library and `jsonText` for
    `JSON.stringify`; both are parameters. */
module Authenticate {
  import opened Js
  import opened Gateway
  import UserApi

  datatype FormType = Login | Register | ForgotPassword

  datatype Schema = LoginSchema | RegisterSchema | ForgotPasswordSchema

  function InitialFormType(): (t: FormType)
    ensures t == Login
  {
    Login
  }

  /** The schema in force for a form type. */
  function SchemaFor(t: FormType): (s: Schema)
    ensures t == Login <==> s == LoginSchema
    ensures t == Register <==> s == RegisterSchema
    ensures t == ForgotPassword <==> s == ForgotPasswordSchema
  {
    match t
    case Login => LoginSchema
    case Register => RegisterSchema
    case ForgotPassword => ForgotPasswordSchema
  }

  /** A field as a string; a missing or non-string value counts as empty. */
  function Text(values: Json, field: string): string {
    var v := Prop(values, field);
    if v.JStr? then v.s else ""
  }

  predicate EmailFails(values: Json, isEmail: string -> bool) {
    Text(values, "email") == "" || !isEmail(Text(values, "email"))
  }

  /** The minimum length counts UTF-16 code units, as JavaScript strings do. */
  predicate PasswordFails(values: Json) {
    Utf16Length(Text(values, "password")) < 6
  }

  /** Three characters beyond the Basic Multilingual Plane are six code units long:
      enough for the minimum. */
  lemma AstralPasswordLongEnough()
    ensures !PasswordFails(JObj(map["password" := JStr("\U{1F600}\U{1F600}\U{1F600}")]))
  {
    var pw := "\U{1F600}\U{1F600}\U{1F600}";
    assert Text(JObj(map["password" := JStr(pw)]), "password") == pw;
    assert Utf16Length(pw) == 6;
  }

  /** The fields a schema rejects. Every schema wants a valid email; login and
      registration want a password of at least six characters; registration
      also wants a name, a username and a confirmation equal to the password. */
  function ValidationErrors(s: Schema, values: Json, isEmail: string -> bool): (errors: set<string>)
    ensures "email" in errors <==> EmailFails(values, isEmail)
    ensures "password" in errors <==> s != ForgotPasswordSchema && PasswordFails(values)
    ensures "name" in errors <==> s == RegisterSchema && Text(values, "name") == ""
    ensures "username" in errors <==> s == RegisterSchema && Text(values, "username") == ""
    ensures "confirmPassword" in errors <==>
              s == RegisterSchema
              && (Text(values, "confirmPassword") == "" || Text(values, "confirmPassword") != Text(values, "password"))
    ensures errors <= {"email", "password", "name", "username", "confirmPassword"}
  {
    var email := if EmailFails(values, isEmail) then {"email"} else {};
    match s
    case ForgotPasswordSchema => email
    case LoginSchema => email + (if PasswordFails(values) then {"password"} else {})
    case RegisterSchema =>
      var confirm := Text(values, "confirmPassword");
      email + (if PasswordFails(values) then {"password"} else {})
      + (if Text(values, "name") == "" then {"name"} else {})
      + (if Text(values, "username") == "" then {"username"} else {})
      + (if confirm == "" || confirm != Text(values, "password") then {"confirmPassword"} else {})
  }

  /** How a mutation settles: rejected, or a response with its `success` flag and `data`. */
  datatype Reply = Threw | Replied(success: bool, data: Json)

  datatype Submitted = Submitted(formType: FormType, request: Option<Args>, dispatched: seq<AuthAction>,
                                 stored: seq<StorageWrite>, navigated: Option<string>)

  /** A successful login: dispatch the tokens, then store both tokens and the
      user as JSON and go to `/post`. Reading the tokens off `undefined` or
      `null` data throws after the dispatch, and the catch stops everything else. */
  function LoginSucceeded(t: FormType, request: Args, data: Json, jsonText: Json -> string): (r: Submitted)
    ensures r.formType == t && r.request == Some(request)
    ensures r.dispatched == [SetTokens(data)]
    ensures Nullish(data) ==> r.stored == [] && r.navigated.None?
    ensures !Nullish(data) ==>
              r.stored == [StorageWrite("accessToken", Stringify(Prop(data, "accessToken"))),
                           StorageWrite("refreshToken", Stringify(Prop(data, "refreshToken"))),
                           StorageWrite("user", jsonText(Prop(data, "user")))]
              && r.navigated == Some("/post")
  {
    var dispatched := [SetTokens(data)];
    if Nullish(data) then Submitted(t, Some(request), dispatched, [], None)
    else
      Submitted(t, Some(request), dispatched,
                [StorageWrite("accessToken", Stringify(Prop(data, "accessToken"))),
                 StorageWrite("refreshToken", Stringify(Prop(data, "refreshToken"))),
                 StorageWrite("user", jsonText(Prop(data, "user")))],
                Some("/post"))
  }

  /** `handleSubmit(onSubmit)` in form type `t`. */
  function Submit(t: FormType, values: Json, isEmail: string -> bool, reply: Reply, jsonText: Json -> string): (r: Submitted)
    // the schema gates every request
    ensures ValidationErrors(SchemaFor(t), values, isEmail) != {} ==>
              r == Submitted(t, None, [], [], None)
    ensures ValidationErrors(SchemaFor(t), values, isEmail) == {} ==>
              r.request == Some(if t == Login then UserApi.LoginUser(values) else UserApi.CreateUser(values))
    // storage and session are written only by a successful login
    ensures r.stored != [] || r.dispatched != [] ==> t == Login && reply.Replied? && reply.success
    ensures r.navigated.Some? ==> t == Login && reply.Replied? && reply.success && !Nullish(reply.data)
    ensures ValidationErrors(SchemaFor(t), values, isEmail) == {} && t == Login && reply.Replied? && reply.success
            && !Nullish(reply.data) ==>
              r.dispatched == [SetTokens(reply.data)]
              && r.stored == [StorageWrite("accessToken", Stringify(Prop(reply.data, "accessToken"))),
                              StorageWrite("refreshToken", Stringify(Prop(reply.data, "refreshToken"))),
                              StorageWrite("user", jsonText(Prop(reply.data, "user")))]
              && r.navigated == Some("/post")
    // tokens read off missing data throw after the dispatch: nothing is stored and the page stays
    ensures ValidationErrors(SchemaFor(t), values, isEmail) == {} && t == Login && reply.Replied? && reply.success
            && Nullish(reply.data) ==>
              r.dispatched == [SetTokens(reply.data)] && r.stored == [] && r.navigated.None?
    // only a successful registration or reset request switches to the login form
    ensures r.formType != t ==> t != Login && reply.Replied? && reply.success && r.formType == Login
    ensures ValidationErrors(SchemaFor(t), values, isEmail) == {} && t != Login && reply.Replied? && reply.success ==>
              r.formType == Login
  {
    if ValidationErrors(SchemaFor(t), values, isEmail) != {} then Submitted(t, None, [], [], None)
    else if t == Login then
      var request := UserApi.LoginUser(values);
      match reply
      case Replied(true, data) => LoginSucceeded(t, request, data, jsonText)
      case _ => Submitted(t, Some(request), [], [], None)
    else
      // the forgot-password form submits through the registration mutation too
      var request := UserApi.CreateUser(values);
      match reply
      case Replied(true, _) => Submitted(Login, Some(request), [], [], None)
      case _ => Submitted(t, Some(request), [], [], None)
  }

  /** Every request the page sends is exempt from the gateway's refresh. */
  lemma SubmitRequestsExempt(t: FormType, values: Json, isEmail: string -> bool, reply: Reply, jsonText: Json -> string)
    ensures var r := Submit(t, values, isEmail, reply, jsonText);
            r.request.Some? ==> Exempt(r.request.value)
  {
  }

  /** The page's buttons: "Register" is shown on the login form, "Login" on the
      other two. The link to the forgot-password form is commented out. */
  datatype Event = ToRegister | ToLogin | SubmitForm(values: Json, reply: Reply)

  function Step(t: FormType, e: Event, isEmail: string -> bool, jsonText: Json -> string): (u: FormType)
    ensures e == ToRegister ==> u == (if t == Login then Register else t)
    ensures e == ToLogin ==> u == (if t == Login then t else Login)
    ensures u == ForgotPassword ==> t == ForgotPassword
  {
    match e
    case ToRegister => if t == Login then Register else t
    case ToLogin => if t == Login then t else Login
    case SubmitForm(values, reply) => Submit(t, values, isEmail, reply, jsonText).formType
  }

  function Run(t: FormType, events: seq<Event>, isEmail: string -> bool, jsonText: Json -> string): FormType
    decreases |events|
  {
    if |events| == 0 then t else Run(Step(t, events[0], isEmail, jsonText), events[1..], isEmail, jsonText)
  }

  /** From the initial login form only login and register are ever reached. */
  lemma {:induction false} ForgotPasswordUnreachable(t: FormType, events: seq<Event>, isEmail: string -> bool,
                                                     jsonText: Json -> string)
    requires t != ForgotPassword
    ensures Run(t, events, isEmail, jsonText) != ForgotPassword
    decreases |events|
  {
    if |events| > 0 {
      ForgotPasswordUnreachable(Step(t, events[0], isEmail, jsonText), events[1..], isEmail, jsonText);
    }
  }
}

=== FILE: data_table.dfy ===
/** The data table's pagination state, its visible window, and the record
    list both export buttons build. */
module DataTable {
  import opened Js

  function Min(a: int, b: int): int {
    if a <= b then a else b
  }

  datatype Pager = Pager(page: nat, rowsPerPage: nat)

  function InitialPager(): (p: Pager)
    ensures p.page == 0 && p.rowsPerPage == 10
  {
    Pager(0, 10)
  }

  /** `handlePageChange`: only the page moves. */
  function ChangePage(p: Pager, newPage: nat): (q: Pager)
    ensures q.page == newPage && q.rowsPerPage == p.rowsPerPage
  {
    p.(page := newPage)
  }

  /** `handleRowsPerPageChange`: the new size, back to the first page. */
  function ChangeRowsPerPage(p: Pager, rowsPerPage: nat): (q: Pager)
    ensures q.rowsPerPage == rowsPerPage && q.page == 0
  {
    Pager(0, rowsPerPage)
  }

  /** `Array.prototype.slice` with non-negative bounds: both are clamped to the length. */
  function Slice<T>(xs: seq<T>, start: nat, end: nat): (r: seq<T>)
    ensures start < end && start < |xs| ==> r == xs[start..Min(end, |xs|)]
    ensures end <= start || |xs| <= start ==> r == []
  {
    var s := Min(start, |xs|);
    var e := Min(end, |xs|);
    if e <= s then [] else xs[s..e]
  }

  /** The rows on screen: the `rowsPerPage` rows that start at the page's first
      row, cut short at the end of the data. */
  function Visible<T>(data: seq<T>, p: Pager): (r: seq<T>)
    ensures |r| <= p.rowsPerPage
    ensures p.page * p.rowsPerPage >= |data| ==> r == []
    ensures p.page * p.rowsPerPage < |data| ==>
              r == data[p.page * p.rowsPerPage .. Min(|data|, p.page * p.rowsPerPage + p.rowsPerPage)]
  {
    Slice(data, p.page * p.rowsPerPage, p.page * p.rowsPerPage + p.rowsPerPage)
  }

  /** The rows of pages `0 .. pages - 1` one after another, each page being the
      slice `Visible` takes for it. */
  function FirstPages<T>(data: seq<T>, rowsPerPage: nat, pages: nat): seq<T>
    decreases pages
  {
    if pages == 0 then []
    else
      var start := (pages - 1) * rowsPerPage;
      FirstPages(data, rowsPerPage, pages - 1) + Slice(data, start, start + rowsPerPage)
  }

  /** Consecutive pages are adjacent and disjoint: the first `k` pages make up a prefix of the data. */
  lemma {:induction false} FirstPagesArePrefix<T>(data: seq<T>, rowsPerPage: nat, pages: nat)
    ensures FirstPages(data, rowsPerPage, pages) == data[..Min(|data|, pages * rowsPerPage)]
    decreases pages
  {
    if pages > 0 {
      var start := (pages - 1) * rowsPerPage;
      assert pages * rowsPerPage == start + rowsPerPage by {
        assert pages * rowsPerPage == (pages - 1) * rowsPerPage + 1 * rowsPerPage;
      }
      FirstPagesArePrefix(data, rowsPerPage, pages - 1);
      AppendPage(data, start, rowsPerPage);
    }
  }

  /** A page continues the prefix that ends where it starts. */
  lemma AppendPage<T>(data: seq<T>, start: nat, size: nat)
    ensures data[..Min(|data|, start)] + Slice(data, start, start + size) == data[..Min(|data|, start + size)]
  {
    if start < |data| && size > 0 {
      assert data[..start] + data[start..Min(|data|, start + size)] == data[..Min(|data|, start + size)];
    }
  }

  /** A column, as far as the export reads it: the row field it shows. */
  datatype Column = Column(field: string)

  /** An exported cell: the row's field when it is truthy, the empty string
      otherwise. The row is read without optional chaining, so a nullish row
      throws and aborts the export; callers must not pass one. */
  function Cell(row: Json, field: string): (v: Json)
    requires !Nullish(row)
    ensures Truthy(v) || v == JStr("")
    ensures Truthy(Prop(row, field)) ==> v == Prop(row, field)
    ensures !Truthy(Prop(row, field)) ==> v == JStr("")
  {
    var value := Prop(row, field);
    if Truthy(value) then value else JStr("")
  }

  /** The column fields, left to right. */
  function Fields(columns: seq<Column>): (fs: seq<string>)
    ensures |fs| == |columns| && forall i :: 0 <= i < |columns| ==> fs[i] == columns[i].field
  {
    seq(|columns|, i requires 0 <= i < |columns| => columns[i].field)
  }

  /** The position where `k` is first defined in `xs`. */
  function FirstIndex(xs: seq<string>, k: string): (n: nat)
    requires k in xs
    ensures n < |xs| && xs[n] == k
    ensures forall m :: 0 <= m < n ==> xs[m] != k
  {
    if xs[0] == k then 0 else 1 + FirstIndex(xs[1..], k)
  }

  /** Appending a definition does not move the first definition of a key already there. */
  lemma FirstIndexAppend(init: seq<string>, x: string, k: string)
    requires k in init
    ensures FirstIndex(init + [x], k) == FirstIndex(init, k)
  {
    var n := FirstIndex(init, k);
    var n' := FirstIndex(init + [x], k);
    assert (init + [x])[n] == k;
  }

  /** The key order of an object whose properties are defined in the order
      `xs`: a key takes its place when first defined, and defining it again
      leaves it where it is. */
  function FieldOrder(xs: seq<string>): (d: seq<string>)
    ensures forall i, j :: 0 <= i < j < |d| ==> d[i] != d[j]
    ensures forall x :: x in d <==> x in xs
    ensures forall i, j :: 0 <= i < j < |d| ==> FirstIndex(xs, d[i]) < FirstIndex(xs, d[j])
    ensures (forall i, j :: 0 <= i < j < |xs| ==> xs[i] != xs[j]) ==> d == xs
    decreases |xs|
  {
    if |xs| == 0 then []
    else
      var init := xs[..|xs| - 1];
      var x := xs[|xs| - 1];
      assert xs == init + [x];
      var d := FieldOrder(init);
      assert forall k :: k in d ==> FirstIndex(xs, k) == FirstIndex(init, k) < |init| by {
        forall k | k in d
          ensures FirstIndex(xs, k) == FirstIndex(init, k) < |init|
        {
          FirstIndexAppend(init, x, k);
        }
      }
      if x in d then d else d + [x]
  }

  /** An exported record: its entries in key order, each with its field's cell. */
  type Entries = seq<(string, Json)>

  function Keys(r: Entries): (ks: seq<string>)
    ensures |ks| == |r| && forall i :: 0 <= i < |r| ==> ks[i] == r[i].0
  {
    seq(|r|, i requires 0 <= i < |r| => r[i].0)
  }

  /** The record one row exports: the columns' entries defined from left to
      right, each holding that column's cell. A repeated field writes the same
      cell again, so only where a field first appears matters. */
  function ExportRecord(row: Json, columns: seq<Column>): (r: Entries)
    requires !Nullish(row)
    ensures Keys(r) == FieldOrder(Fields(columns))
    ensures forall i :: 0 <= i < |r| ==> r[i].1 == Cell(row, r[i].0)
  {
    var keys := FieldOrder(Fields(columns));
    var r := seq(|keys|, i requires 0 <= i < |keys| => (keys[i], Cell(row, keys[i])));
    assert Keys(r) == keys;
    r
  }

  /** With distinct fields, the record's keys are the column fields in column order. */
  lemma ExportRecordInColumnOrder(row: Json, columns: seq<Column>)
    requires !Nullish(row)
    requires forall i, j :: 0 <= i < j < |columns| ==> columns[i].field != columns[j].field
    ensures var r := ExportRecord(row, columns);
            |r| == |columns| && forall i :: 0 <= i < |r| ==> r[i] == (columns[i].field, Cell(row, columns[i].field))
  {
    var r := ExportRecord(row, columns);
    assert Keys(r) == Fields(columns);
  }

  function ExportRecords(data: seq<Json>, columns: seq<Column>): (r: seq<Entries>)
    requires forall i :: 0 <= i < |data| ==> !Nullish(data[i])
    ensures |r| == |data|
    ensures forall i :: 0 <= i < |data| ==> r[i] == ExportRecord(data[i], columns)
  {
    seq(|data|, i requires 0 <= i < |data| => ExportRecord(data[i], columns))
  }

  /** What an export hands to the spreadsheet writer: the file name and the records. */
  datatype Export = Export(fileName: string, records: seq<Entries>)

  function ExportToCsv(data: seq<Json>, columns: seq<Column>): (e: Export)
    requires forall i :: 0 <= i < |data| ==> !Nullish(data[i])
    ensures e.fileName == "data.csv"
    ensures |e.records| == |data|
    ensures forall i :: 0 <= i < |data| ==> e.records[i] == ExportRecord(data[i], columns)
  {
    Export("data.csv", ExportRecords(data, columns))
  }

  function ExportToExcel(data: seq<Json>, columns: seq<Column>): (e: Export)
    requires forall i :: 0 <= i < |data| ==> !Nullish(data[i])
    ensures e.fileName == "data.xlsx"
    ensures |e.records| == |data|
    ensures forall i :: 0 <= i < |data| ==> e.records[i] == ExportRecord(data[i], columns)
  {
    Export("data.xlsx", ExportRecords(data, columns))
  }

  /** Both exports build the same records; only the file name differs. */
  lemma ExportsAgree(data: seq<Json>, columns: seq<Column>)
    requires forall i :: 0 <= i < |data| ==> !Nullish(data[i])
    ensures ExportToCsv(data, columns).records == ExportToExcel(data, columns).records
  {
  }
}

=== FILE: entities.dfy ===
/** The resource records the client caches, with the fields the modelled code reads. */
module Entities {

  /** A song as the backend returns it; `id` is its `_id`. */
  datatype Song = Song(id: string, title: string, artist: string, album: string,
                       genre: string, lyrics: string, audioUrl: string)

  /** A playlist; `id` is its `_id`. */
  datatype Playlist = Playlist(id: string, name: string, description: string, songs: seq<Song>)

  /** A feed post as the post cache declares it, keyed by `id`. */
  datatype Post = Post(id: string, title: string, content: string)
}

=== FILE: file_uploader.dfy ===
/** The file drop zone: what one drop does to the previews, which callbacks
    it fires and which alerts it raises. */
module FileUploader {
  import opened Js
  import opened Form

  /** 50 MiB. */
  const MaxFileSize: nat := 50 * 1024 * 1024

  predicate WithinLimit(f: File) {
    f.size <= MaxFileSize
  }

  /** Image, video and audio files get a preview; the test is on the start of the MIME type. */
  predicate Previewable(mime: string) {
    "image" <= mime || "video" <= mime || "audio" <= mime
  }

  datatype Preview = Preview(file: File, url: Option<string>)

  /** The preview of the file at some position; `minted` is what `URL.createObjectURL`
      gave for it, `None` when it threw. */
  function PreviewOf(f: File, minted: Option<string>): (p: Preview)
    ensures p.file == f
    ensures f.size > 52428800 ==> p.url.None?
    ensures WithinLimit(f) ==> (p.url.Some? <==> Previewable(f.mime) && minted.Some?)
    ensures p.url.Some? ==> p.url == minted
  {
    if !WithinLimit(f) then Preview(f, None)
    else if Previewable(f.mime) then Preview(f, minted)
    else Preview(f, None)
  }

  function CountWithin(files: seq<File>): (n: nat)
    ensures n <= |files|
    ensures n == 0 <==> forall i :: 0 <= i < |files| ==> !WithinLimit(files[i])
    decreases |files|
  {
    if |files| == 0 then 0
    else (if WithinLimit(files[0]) then 1 else 0) + CountWithin(files[1..])
  }

  /** The alert text for an oversized file. */
  function TooLarge(f: File): string {
    "File " + f.name + " is too large. Please select a smaller file."
  }

  /** One too-large alert per oversized file, in file order. */
  function Alerts(files: seq<File>): (r: seq<string>)
    ensures |r| == |files| - CountWithin(files)
    ensures forall i :: 0 <= i < |r| ==> exists j :: 0 <= j < |files| && !WithinLimit(files[j]) && r[i] == TooLarge(files[j])
    decreases |files|
  {
    if |files| == 0 then []
    else
      var head := if WithinLimit(files[0]) then [] else [TooLarge(files[0])];
      var tail := Alerts(files[1..]);
      assert forall i :: 0 <= i < |tail| ==> exists j :: 0 <= j < |files| && !WithinLimit(files[j]) && tail[i] == TooLarge(files[j]) by {
        forall i | 0 <= i < |tail|
          ensures exists j :: 0 <= j < |files| && !WithinLimit(files[j]) && tail[i] == TooLarge(files[j])
        {
          var j :| 0 <= j < |files[1..]| && !WithinLimit(files[1..][j]) && tail[i] == TooLarge(files[1..][j]);
          assert files[j + 1] == files[1..][j];
        }
      }
      head + tail
  }

  /** The alerts of two batches of files are the first batch's followed by the second's. */
  lemma {:induction false} AlertsConcat(a: seq<File>, b: seq<File>)
    ensures Alerts(a + b) == Alerts(a) + Alerts(b)
    decreases |a|
  {
    if |a| == 0 {
      assert a + b == b;
    } else {
      assert (a + b)[0] == a[0];
      assert (a + b)[1..] == a[1..] + b;
      AlertsConcat(a[1..], b);
    }
  }

  /** A single file raises an alert exactly when it is over the limit. */
  lemma AlertsSingle(f: File)
    ensures Alerts([f]) == if WithinLimit(f) then [] else [TooLarge(f)]
  {
    assert [f][1..] == [];
  }

  datatype DropResult = DropResult(previews: seq<Preview>, onDropCalls: seq<seq<File>>, alerts: seq<string>)

  /** `onDrop(acceptedFiles)`: one preview per file in order, replacing the
      previous previews; `onDropFile(acceptedFiles)` once for every file within
      the limit; an alert for every file over it. */
  function OnDrop(previous: seq<Preview>, files: seq<File>, mint: nat -> Option<string>): (r: DropResult)
    ensures |r.previews| == |files|
    ensures forall i :: 0 <= i < |files| ==> r.previews[i] == PreviewOf(files[i], mint(i))
    ensures |r.onDropCalls| == CountWithin(files)
    ensures forall i :: 0 <= i < |r.onDropCalls| ==> r.onDropCalls[i] == files
    ensures r.alerts == Alerts(files)
    ensures |r.onDropCalls| + |r.alerts| == |files|
  {
    DropResult(seq(|files|, i requires 0 <= i < |files| => PreviewOf(files[i], mint(i))),
               seq(CountWithin(files), _ => files),
               Alerts(files))
  }
}

=== FILE: form.dfy ===
/** Browser `File` and `FormData` objects, as far as the dialogs and the
    song endpoints use them. */
module Form {
  import opened Js

  /** A dropped file: its name, its size in bytes and its MIME type. */
  datatype File = File(name: string, size: nat, mime: string)

  /** `FormData.append` keeps a `File` as a blob and turns anything else into text. */
  datatype FormValue = Text(s: string) | Blob(file: File)

  datatype Entry = Entry(name: string, value: FormValue)

  /** A `FormData` object: its entries in insertion order; names may repeat. */
  type FormData = seq<Entry>

  function Append(fd: FormData, name: string, value: FormValue): (r: FormData)
    ensures |r| == |fd| + 1 && r[..|fd|] == fd && r[|fd|] == Entry(name, value)
  {
    fd + [Entry(name, value)]
  }

  predicate HasEntry(fd: FormData, name: string) {
    exists i :: 0 <= i < |fd| && fd[i].name == name
  }

  /** `fd.get(name)`: the value of the first entry with that name, `null` (None) if there is none. */
  function Get(fd: FormData, name: string): (r: Option<FormValue>)
    ensures r.None? <==> !HasEntry(fd, name)
    ensures r.Some? ==> exists i :: 0 <= i < |fd| && fd[i] == Entry(name, r.value)
                                  && forall j :: 0 <= j < i ==> fd[j].name != name
    decreases |fd|
  {
    if |fd| == 0 then None
    else if fd[0].name == name then Some(fd[0].value)
    else
      var r := Get(fd[1..], name);
      if r.Some? then
        ghost var i :| 0 <= i < |fd[1..]| && fd[1..][i] == Entry(name, r.value)
                       && forall j :: 0 <= j < i ==> fd[1..][j].name != name;
        assert fd[i + 1] == Entry(name, r.value);
        r
      else
        r
  }

  /** What a template literal shows for `fd.get(name)`. */
  function GetText(fd: FormData, name: string): (r: string)
    ensures Get(fd, name).None? ==> r == "null"
    ensures Get(fd, name).Some? && Get(fd, name).value.Text? ==> r == Get(fd, name).value.s
    ensures Get(fd, name).Some? && Get(fd, name).value.Blob? ==> r == "[object File]"
  {
    match Get(fd, name)
    case None => "null"
    case Some(Text(s)) => s
    case Some(Blob(_)) => "[object File]"
  }
}

=== FILE: gateway.dfy ===
/** The re-authenticating request gateway (`baseQueryWithReauth`) and the
    header preparation of its base query.

    One invocation is a pure function of the request, the session snapshot
    it reads, and a script of what the transport answers to each of the (at
    most three) calls it makes. The result is how the invocation completes,
    the calls it made, the actions it dispatched to the session store and
    the writes it made to persistent storage. */
module Gateway {
  import opened Js
  import Form

  /** A request body: a plain object or a `FormData`. */
  datatype Body = JsonBody(json: Json) | FormBody(form: Form.FormData)

  /** The `string | FetchArgs` argument of a base query. */
  datatype Args =
    | Path(path: string)
    | Fetch(url: string, verb: Option<string>, headers: map<string, string>, body: Option<Body>)

  /** The `status` of a fetch base query error: an HTTP code or a transport-level failure. */
  datatype Status = Http(code: int) | FetchError | ParsingError | TimeoutError | CustomError

  /** What one base query resolves to: `{data}` or `{error: {status, data}}`. */
  datatype QueryResult = Data(data: Json) | Error(status: Status, detail: Json)

  predicate Unauthorized(r: QueryResult) {
    r.Error? && r.status == Http(401)
  }

  /** `refreshResult.data`: an error result has no top-level `data`. */
  function DataOf(r: QueryResult): (d: Json)
    ensures r.Error? ==> d == JUndef
    ensures r.Data? ==> d == r.data
  {
    if r.Data? then r.data else JUndef
  }

  /** The first piece of `s` when it is split at slashes: its longest prefix without a slash. */
  function FirstSegment(s: string): (r: string)
    ensures r <= s
    ensures '/' !in r
    ensures |r| < |s| ==> s[|r|] == '/'
    decreases |s|
  {
    if |s| == 0 || s[0] == '/' then "" else [s[0]] + FirstSegment(s[1..])
  }

  lemma {:induction false} FirstSegmentOfJoin(segment: string, rest: string)
    requires '/' !in segment
    ensures FirstSegment(segment + "/" + rest) == segment
  {
    var s := segment + "/" + rest;
    assert s[..|segment|] == segment && s[|segment|] == '/';
  }

  lemma {:induction false} FirstSegmentWithoutSlash(s: string)
    requires '/' !in s
    ensures FirstSegment(s) == s
  {
  }

  /** The path `<segment>/<rest>`, whose first segment is `segment` whatever `rest` holds. */
  function Under(segment: string, rest: string): (p: string)
    requires '/' !in segment
    ensures p == segment + "/" + rest
    ensures FirstSegment(p) == segment
  {
    FirstSegmentOfJoin(segment, rest);
    segment + "/" + rest
  }

  /** Line 28: a request may not trigger a refresh when it is an object
      argument whose url starts with the `users` segment and whose method is
      exactly `POST`. A plain string argument has no `url` and is never exempt. */
  predicate Exempt(args: Args) {
    args.Fetch? && FirstSegment(args.url) == "users" && args.verb == Some("POST")
  }

  /** A first segment of `users` means the url is `users` or lies below `users/`. */
  lemma UsersSegmentForward(u: string)
    requires FirstSegment(u) == "users"
    ensures u == "users" || "users/" <= u
  {
    if u != "users" {
      assert u[..6] == FirstSegment(u) + [u[5]];
    }
  }

  /** `users` and every path below `users/` have first segment `users`. */
  lemma UsersSegmentBackward(u: string)
    requires u == "users" || "users/" <= u
    ensures FirstSegment(u) == "users"
  {
    if u == "users" {
      FirstSegmentWithoutSlash("users");
    } else {
      assert u == "users" + "/" + u[6..];
      FirstSegmentOfJoin("users", u[6..]);
    }
  }

  /** The exemption in terms of the url alone: a POST to `users` itself or to
      any path below it. */
  lemma ExemptRule(args: Args)
    ensures Exempt(args) <==>
              args.Fetch? && args.verb == Some("POST") && (args.url == "users" || "users/" <= args.url)
  {
    if args.Fetch? {
      if FirstSegment(args.url) == "users" {
        UsersSegmentForward(args.url);
      }
      if args.url == "users" || "users/" <= args.url {
        UsersSegmentBackward(args.url);
      }
    }
  }

  /** The credential text `Bearer ${token}`. */
  function Bearer(token: Json): string {
    "Bearer " + Stringify(token)
  }

  /** The Authorization value `prepareHeaders` sets for this access token, if any. */
  function Attached(accessToken: Json): (r: Option<string>)
    ensures r.Some? <==> Truthy(accessToken)
    ensures r.Some? ==> r.value == Bearer(accessToken)
  {
    if Truthy(accessToken) then Some(Bearer(accessToken)) else None
  }

  /** `prepareHeaders`: set `Authorization: Bearer <token>` when the token is
      truthy, otherwise hand the headers back untouched. */
  function PrepareHeaders(headers: map<string, string>, accessToken: Json): (r: map<string, string>)
    ensures Truthy(accessToken) ==> "Authorization" in r && r["Authorization"] == Bearer(accessToken)
    ensures !Truthy(accessToken) ==> r == headers
    ensures forall k :: k != "Authorization" ==> (k in r <==> k in headers)
    ensures forall k :: k in headers && k != "Authorization" ==> r[k] == headers[k]
  {
    match Attached(accessToken)
    case Some(value) => headers["Authorization" := value]
    case None => headers
  }

  /** The slice of the session store the gateway reads. */
  datatype Session = Session(accessToken: Json, refreshToken: Json, user: Json)

  /** One transport call: the arguments handed to the base query and the
      Authorization value its `prepareHeaders` attaches. */
  datatype Call = Call(args: Args, attached: Option<string>)

  /** The request's own headers; a plain path carries none. */
  function OwnHeaders(args: Args): map<string, string> {
    if args.Fetch? then args.headers else map[]
  }

  /** The headers a call goes out with. The base query copies the request's
      own headers first and runs `prepareHeaders` on them afterwards, so an
      attached bearer replaces any `Authorization` the request set itself. */
  function Sent(c: Call): (h: map<string, string>)
    ensures c.attached.Some? ==> "Authorization" in h && h["Authorization"] == c.attached.value
    ensures c.attached.None? ==> h == OwnHeaders(c.args)
    ensures forall k :: k != "Authorization" ==> (k in h <==> k in OwnHeaders(c.args))
  {
    match c.attached
    case Some(value) => OwnHeaders(c.args)["Authorization" := value]
    case None => OwnHeaders(c.args)
  }

  /** A call made under an access token goes out with exactly the headers
      `prepareHeaders` returns for the request's own. */
  lemma SentIsPrepared(args: Args, accessToken: Json)
    ensures Sent(Call(args, Attached(accessToken))) == PrepareHeaders(OwnHeaders(args), accessToken)
  {
  }

  /** Session actions; their effect on the store belongs to a reducer that is not modelled. */
  datatype AuthAction = SetTokens(payload: Json) | ResetTokens

  /** `localStorage.setItem(key, value)`; the value is stored as `String(value)`. */
  datatype StorageWrite = StorageWrite(key: string, value: string)

  /** How the invocation's promise settles: with a result, or rejected by a thrown TypeError. */
  datatype Completion = Resolved(result: QueryResult) | Rejected

  /** The transport's answers, in call order. `refresh == None` stands for a
      falsy refresh result. `replayToken` is the access token the session
      store holds when the replay's headers are prepared, which the unmodelled
      reducer of `setTokens` decides. */
  datatype Script = Script(first: QueryResult, refresh: Option<QueryResult>, replay: QueryResult, replayToken: Json)

  datatype Run = Run(completion: Completion, calls: seq<Call>, dispatched: seq<AuthAction>, stored: seq<StorageWrite>)

  /** The renewal request: a GET to `users/ref-token` carrying the refresh token as bearer. */
  function RefreshArgs(refreshToken: Json): (a: Args)
    ensures a.Fetch? && a.url == "users" + "/" + "ref-token" && a.verb == Some("GET") && a.body.None?
    ensures a.headers == map["Authorization" := Bearer(refreshToken)]
    ensures FirstSegment(a.url) == "users" && !Exempt(a)
  {
    Fetch(Under("users", "ref-token"), Some("GET"), map["Authorization" := Bearer(refreshToken)], None)
  }

  /** The first answer sends the invocation down the refresh path. */
  predicate NeedsRefresh(args: Args, first: QueryResult) {
    !Exempt(args) && Unauthorized(first)
  }

  /** Exactly a 401 error on a request that is not a POST under `users` starts a refresh. */
  lemma RefreshTrigger(args: Args, first: QueryResult)
    ensures NeedsRefresh(args, first) <==>
              first.Error? && first.status == Http(401)
              && !(args.Fetch? && args.verb == Some("POST") && (args.url == "users" || "users/" <= args.url))
  {
    ExemptRule(args);
  }

  /** The payload of `setTokens` after a renewal: every own field of the
      renewal's data, with `user` overridden by the user the session held before. */
  function RefreshPayload(refreshed: QueryResult, user: Json): (p: map<string, Json>)
    ensures "user" in p && p["user"] == user
    ensures forall k :: k != "user" ==> (k in p <==> DataOf(refreshed).JObj? && k in DataOf(refreshed).fields)
    ensures forall k :: k in p && k != "user" ==> p[k] == DataOf(refreshed).fields[k]
  {
    Spread(DataOf(refreshed))["user" := user]
  }

  /** The two storage writes after a refresh whose data could be read. */
  function RefreshWrites(data: Json): (w: seq<StorageWrite>)
    ensures |w| == 2 && w[0].key == "accessToken" && w[1].key == "refreshToken"
    ensures w[0].value == Stringify(Prop(data, "accessToken"))
    ensures w[1].value == Stringify(Prop(data, "refreshToken"))
  {
    [StorageWrite("accessToken", Stringify(Prop(data, "accessToken"))),
     StorageWrite("refreshToken", Stringify(Prop(data, "refreshToken")))]
  }

  /** `baseQueryWithReauth`, as written. */
  function Execute(args: Args, session: Session, script: Script): (run: Run)
    // every invocation starts with the request itself, bearing the current access token
    ensures 1 <= |run.calls| <= 3
    ensures run.calls[0] == Call(args, Attached(session.accessToken))
    // no refresh path: one call, the answer passed through, no session effect
    ensures !NeedsRefresh(args, script.first) ==>
              run.completion == Resolved(script.first) && |run.calls| == 1
              && run.dispatched == [] && run.stored == []
    // refresh path without a refresh token: log out, return the original 401
    ensures NeedsRefresh(args, script.first) && !Truthy(session.refreshToken) ==>
              run.completion == Resolved(script.first) && |run.calls| == 1
              && run.dispatched == [ResetTokens] && run.stored == []
    // with a refresh token: exactly one renewal call
    ensures NeedsRefresh(args, script.first) && Truthy(session.refreshToken) ==>
              |run.calls| >= 2 && run.calls[1] == Call(RefreshArgs(session.refreshToken), Attached(session.accessToken))
    // a falsy refresh result logs out and returns the original 401
    ensures NeedsRefresh(args, script.first) && Truthy(session.refreshToken) && script.refresh.None? ==>
              run.completion == Resolved(script.first) && |run.calls| == 2
              && run.dispatched == [ResetTokens] && run.stored == []
    // any refresh result that exists goes to setTokens, keeping the user read before the refresh
    ensures NeedsRefresh(args, script.first) && Truthy(session.refreshToken) && script.refresh.Some? ==>
              run.dispatched == [SetTokens(JObj(RefreshPayload(script.refresh.value, session.user)))]
    // ...then stores both tokens, never the user, and replays the original request once
    ensures NeedsRefresh(args, script.first) && Truthy(session.refreshToken) && script.refresh.Some?
            && !Nullish(DataOf(script.refresh.value)) ==>
              run.completion == Resolved(script.replay) && |run.calls| == 3
              && run.calls[2] == Call(args, Attached(script.replayToken))
              && run.stored == RefreshWrites(DataOf(script.refresh.value))

    // ...unless the result has no data to read: then the invocation rejects
    ensures NeedsRefresh(args, script.first) && Truthy(session.refreshToken) && script.refresh.Some?
            && Nullish(DataOf(script.refresh.value)) ==>
              run.completion == Rejected && |run.calls| == 2 && run.stored == []
    // logging out always hands back the original answer
    ensures ResetTokens in run.dispatched ==> run.completion == Resolved(script.first)
    // the user is never written to storage
    ensures forall w :: w in run.stored ==> w.key != "user"
    ensures run.completion.Resolved? ==>
              run.completion.result == script.first || run.completion.result == script.replay
  {
    var original := Call(args, Attached(session.accessToken));
    if !NeedsRefresh(args, script.first) then
      Run(Resolved(script.first), [original], [], [])
    else if !Truthy(session.refreshToken) then
      Run(Resolved(script.first), [original], [ResetTokens], [])
    else
      var renewal := Call(RefreshArgs(session.refreshToken), Attached(session.accessToken));
      Renewal(original, renewal, script.refresh, session.user, script.first, script.replay,
              Call(args, Attached(script.replayToken)))
  }

  /** `baseQueryWithReauth` after the renewal call. A falsy result logs out and
      hands back the original answer. Any other result is dispatched with
      `setTokens`; then either both tokens are stored and the request is
      replayed, or reading `accessToken` from missing data throws. */
  function Renewal(original: Call, renewal: Call, refresh: Option<QueryResult>, user: Json,
                   first: QueryResult, replayed: QueryResult, replay: Call): (run: Run)
    ensures |run.calls| >= 2 && run.calls[..2] == [original, renewal]
    ensures refresh.None? ==>
              run.completion == Resolved(first) && |run.calls| == 2
              && run.dispatched == [ResetTokens] && run.stored == []
    ensures refresh.Some? ==> run.dispatched == [SetTokens(JObj(RefreshPayload(refresh.value, user)))]
    ensures refresh.Some? && !Nullish(DataOf(refresh.value)) ==>
              run.completion == Resolved(replayed) && run.calls == [original, renewal, replay]
              && run.stored == RefreshWrites(DataOf(refresh.value))
    ensures refresh.Some? && Nullish(DataOf(refresh.value)) ==>
              run.completion == Rejected && run.calls == [original, renewal] && run.stored == []
    ensures ResetTokens in run.dispatched ==> run.completion == Resolved(first)
    ensures forall w :: w in run.stored ==> w.key != "user"
    ensures run.completion.Resolved? ==> run.completion.result == first || run.completion.result == replayed
  {
    match refresh
    case None => Run(Resolved(first), [original, renewal], [ResetTokens], [])
    case Some(refreshed) =>
      var setTokens := SetTokens(JObj(RefreshPayload(refreshed, user)));
      var data := DataOf(refreshed);
      match ReadProp(data, "accessToken")
      case None =>
        // `refreshResult.data.accessToken` throws before anything is stored
        Run(Rejected, [original, renewal], [setTokens], [])
      case Some(_) =>
        Run(Resolved(replayed), [original, renewal, replay], [setTokens], RefreshWrites(data))
  }

  /** A refresh answered with an error status never logs out: the gateway
      dispatches `setTokens` with only the user and then rejects. */
  lemma FailedRefreshRejects(args: Args, session: Session, script: Script)
    requires NeedsRefresh(args, script.first) && Truthy(session.refreshToken)
    requires script.refresh.Some? && script.refresh.value.Error?
    ensures Execute(args, session, script).completion == Rejected
    ensures Execute(args, session, script).dispatched == [SetTokens(JObj(map["user" := session.user]))]
    ensures ResetTokens !in Execute(args, session, script).dispatched
  {
  }

  /** A concrete instance: a 401 on `songs` with an expired refresh token. */
  lemma FailedRefreshExample()
    ensures
      var args := Path("songs");
      var session := Session(JStr("access"), JStr("refresh"), JStr("me"));
      var denied := Error(Http(401), JUndef);
      var run := Execute(args, session, Script(denied, Some(denied), Data(JNull), JUndef));
      run.completion == Rejected && ResetTokens !in run.dispatched && |run.calls| == 2
  {
    var args := Path("songs");
    assert !Exempt(args);
  }

  /** The evidently intended gateway: renew only when the refresh result
      carries data, and log out otherwise. */
  function ExecuteIntended(args: Args, session: Session, script: Script): (run: Run)
    ensures 1 <= |run.calls| <= 3
    ensures run.calls[0] == Call(args, Attached(session.accessToken))
    ensures run.completion.Resolved?
    ensures !NeedsRefresh(args, script.first) ==>
              run.completion == Resolved(script.first) && |run.calls| == 1
              && run.dispatched == [] && run.stored == []
    ensures NeedsRefresh(args, script.first) && !Truthy(session.refreshToken) ==>
              run.completion == Resolved(script.first) && |run.calls| == 1
              && run.dispatched == [ResetTokens] && run.stored == []
    // a failed renewal, whatever its shape, logs out and returns the original 401
    ensures NeedsRefresh(args, script.first) && Truthy(session.refreshToken)
            && (script.refresh.None? || !Truthy(DataOf(script.refresh.value))) ==>
              run.completion == Resolved(script.first) && |run.calls| == 2
              && run.dispatched == [ResetTokens] && run.stored == []
    ensures NeedsRefresh(args, script.first) && Truthy(session.refreshToken)
            && script.refresh.Some? && Truthy(DataOf(script.refresh.value)) ==>
              run.completion == Resolved(script.replay) && |run.calls| == 3
              && run.dispatched == [SetTokens(JObj(RefreshPayload(script.refresh.value, session.user)))]
              && run.stored == RefreshWrites(DataOf(script.refresh.value))
  {
    var original := Call(args, Attached(session.accessToken));
    if !NeedsRefresh(args, script.first) then
      Run(Resolved(script.first), [original], [], [])
    else if !Truthy(session.refreshToken) then
      Run(Resolved(script.first), [original], [ResetTokens], [])
    else
      var renewal := Call(RefreshArgs(session.refreshToken), Attached(session.accessToken));
      if script.refresh.Some? && Truthy(DataOf(script.refresh.value)) then
        var data := DataOf(script.refresh.value);
        Run(Resolved(script.replay), [original, renewal, Call(args, Attached(script.replayToken))],
            [SetTokens(JObj(RefreshPayload(script.refresh.value, session.user)))], RefreshWrites(data))
      else
        Run(Resolved(script.first), [original, renewal], [ResetTokens], [])
  }

  /** The renewal call carries the refresh token only when no access token is
      held. Otherwise, as after the usual expired-token 401, `prepareHeaders`
      replaces its bearer with the access token. */
  lemma RenewalSendsAccessToken(args: Args, session: Session, script: Script)
    requires NeedsRefresh(args, script.first) && Truthy(session.refreshToken)
    ensures var h := Sent(Execute(args, session, script).calls[1]);
            "Authorization" in h
            && h["Authorization"] == if Truthy(session.accessToken) then Bearer(session.accessToken)
                                     else Bearer(session.refreshToken)
  {
  }

  /** A renewal actually happens and its result exists but carries no truthy data. */
  predicate FailedRenewal(args: Args, session: Session, script: Script) {
    NeedsRefresh(args, script.first) && Truthy(session.refreshToken)
    && script.refresh.Some? && !Truthy(DataOf(script.refresh.value))
  }

  /** The two gateways differ exactly on the failed renewals: there the code
      dispatches `setTokens` while the intended gateway logs out. */
  lemma IntendedAgreesOutsideFailedRefresh(args: Args, session: Session, script: Script)
    ensures Execute(args, session, script) == ExecuteIntended(args, session, script)
            <==> !FailedRenewal(args, session, script)
  {
    if FailedRenewal(args, session, script) {
      assert Execute(args, session, script).dispatched != ExecuteIntended(args, session, script).dispatched;
    }
  }
}

=== FILE: js.dfy ===
/** The JavaScript values the application passes around untyped: response
    bodies, form values, table rows. Only the behaviour the modelled code
    relies on is given: truthiness, property reads (with and without
    optional chaining), and `String(v)` as used by template literals. */
module Js {

  datatype Option<+T> = None | Some(value: T)

  /** A JavaScript value. Numbers are integers here (no NaN, no fractions). */
  datatype Json =
    | JUndef
    | JNull
    | JBool(b: bool)
    | JNum(n: int)
    | JStr(s: string)
    | JArr(items: seq<Json>)
    | JObj(fields: map<string, Json>)

  /** JavaScript truthiness: `undefined`, `null`, `false`, `0` and `""` are falsy. */
  predicate Truthy(v: Json) {
    match v
    case JUndef => false
    case JNull => false
    case JBool(b) => b
    case JNum(n) => n != 0
    case JStr(s) => s != ""
    case _ => true
  }

  predicate Nullish(v: Json) {
    v == JUndef || v == JNull
  }

  /** `v?.key`: a missing property reads as `undefined`, and so does every
      property of a value that is not an object. That is exact for `null`,
      `undefined`, numbers and booleans; the `length` and index properties of
      strings and arrays are not modelled. */
  function Prop(v: Json, key: string): (r: Json)
    ensures v.JObj? && key in v.fields ==> r == v.fields[key]
    ensures !(v.JObj? && key in v.fields) ==> r == JUndef
  {
    if v.JObj? && key in v.fields then v.fields[key] else JUndef
  }

  /** `v.key` without optional chaining: reading a property of `undefined` or
      `null` throws a TypeError, modelled as `None`. */
  function ReadProp(v: Json, key: string): (r: Option<Json>)
    ensures r.None? <==> Nullish(v)
    ensures r.Some? ==> r.value == Prop(v, key)
  {
    if Nullish(v) then None else Some(Prop(v, key))
  }

  /** The own enumerable properties copied by an object spread `{...v}`. */
  function Spread(v: Json): (r: map<string, Json>)
    ensures v.JObj? ==> r == v.fields
    ensures !v.JObj? ==> r == map[]
  {
    if v.JObj? then v.fields else map[]
  }

  /** JavaScript's `s.length`: the number of UTF-16 code units, so a character
      beyond the Basic Multilingual Plane counts twice. */
  function Utf16Length(s: string): (n: nat)
    ensures |s| <= n <= 2 * |s|
    ensures (forall i :: 0 <= i < |s| ==> s[i] as int <= 0xFFFF) ==> n == |s|
    decreases |s|
  {
    if |s| == 0 then 0
    else (if s[0] as int > 0xFFFF then 2 else 1) + Utf16Length(s[1..])
  }

  function DigitChar(d: nat): (c: char)
    requires d < 10
    ensures '0' <= c <= '9'
  {
    "0123456789"[d]
  }

  function NatToString(n: nat): (r: string)
    ensures |r| >= 1
    ensures forall i :: 0 <= i < |r| ==> '0' <= r[i] <= '9'
    decreases n
  {
    if n < 10 then [DigitChar(n)] else NatToString(n / 10) + [DigitChar(n % 10)]
  }

  function IntToString(n: int): (r: string)
    ensures |r| >= 1
    ensures n >= 0 <==> '0' <= r[0] <= '9'
  {
    if n < 0 then "-" + NatToString(-n) else NatToString(n)
  }

  /** `String(v)`, which is what a template literal `${v}` inserts. Arrays
      join their elements with "," and show `null`/`undefined` elements as "". */
  function Stringify(v: Json): string
    decreases v
  {
    match v
    case JUndef => "undefined"
    case JNull => "null"
    case JBool(b) => if b then "true" else "false"
    case JNum(n) => IntToString(n)
    case JStr(s) => s
    case JArr(items) => JoinElements(items)
    case JObj(_) => "[object Object]"
  }

  function JoinElements(items: seq<Json>): string
    decreases items
  {
    if |items| == 0 then ""
    else
      var first := if Nullish(items[0]) then "" else Stringify(items[0]);
      if |items| == 1 then first else first + "," + JoinElements(items[1..])
  }
}

=== FILE: list_cache.dfy ===
/** The two list operations the cache reducers share: replace the list by a
    payload pushed element by element, and drop the entries with a given id. */
module ListCache {
  import opened Js

  /** Pushing the elements of `xs` one by one onto an empty list. */
  function Pushed<T>(xs: seq<T>): (r: seq<T>)
    ensures r == xs
    decreases |xs|
  {
    if |xs| == 0 then [] else Pushed(xs[..|xs| - 1]) + [xs[|xs| - 1]]
  }

  /** The list is emptied and the payload's elements, if there is a payload,
      are pushed onto it: the old list plays no part. */
  function ReplaceAll<T>(payload: Option<seq<T>>): (r: seq<T>)
    ensures payload.None? ==> r == []
    ensures payload.Some? ==> r == payload.value
  {
    match payload
    case None => []
    case Some(xs) => Pushed(xs)
  }

  /** Keep the entries whose key differs from the id; an absent id is `undefined`,
      which no string key equals, so it keeps everything. */
  function Without<T>(xs: seq<T>, key: T -> string, id: Option<string>): (r: seq<T>)
    ensures |r| <= |xs|
    ensures forall i :: 0 <= i < |r| ==> r[i] in xs && Some(key(r[i])) != id
    ensures forall i :: 0 <= i < |xs| && Some(key(xs[i])) != id ==> xs[i] in r
    decreases |xs|
  {
    if |xs| == 0 then []
    else if Some(key(xs[0])) != id then [xs[0]] + Without(xs[1..], key, id)
    else Without(xs[1..], key, id)
  }

  /** Filtering distributes over concatenation, so the kept entries stay in their original order. */
  lemma {:induction false} WithoutConcat<T>(a: seq<T>, b: seq<T>, key: T -> string, id: Option<string>)
    ensures Without(a + b, key, id) == Without(a, key, id) + Without(b, key, id)
    decreases |a|
  {
    if |a| == 0 {
      assert a + b == b;
    } else {
      assert (a + b)[0] == a[0];
      assert (a + b)[1..] == a[1..] + b;
      WithoutConcat(a[1..], b, key, id);
    }
  }

  /** With an absent id, or an id no entry carries, nothing is dropped. */
  lemma {:induction false} WithoutUnmatched<T>(xs: seq<T>, key: T -> string, id: Option<string>)
    requires forall i :: 0 <= i < |xs| ==> Some(key(xs[i])) != id
    ensures Without(xs, key, id) == xs
    decreases |xs|
  {
    if |xs| > 0 {
      WithoutUnmatched(xs[1..], key, id);
    }
  }

  /** Removing twice is removing once. */
  lemma WithoutIdempotent<T>(xs: seq<T>, key: T -> string, id: Option<string>)
    ensures Without(Without(xs, key, id), key, id) == Without(xs, key, id)
  {
    var r := Without(xs, key, id);
    WithoutUnmatched(r, key, id);
  }
}

=== FILE: playlist_api.dfy ===
/** The playlist endpoints. None of them lies under the `users` segment, so a
    401 on any of them goes down the refresh path. */
module PlaylistApi {
  import opened Js
  import opened Gateway

  function GetPlaylistById(id: string): (a: Args)
    ensures a.Path? && a.path == "playlist/" + id && FirstSegment(a.path) == "playlist"
    ensures forall r :: NeedsRefresh(a, r) <==> Unauthorized(r)
  {
    Path(Under("playlist", id))
  }

  function GetPlaylists(): (a: Args)
    ensures a.Path? && a.path == "playlist" && FirstSegment(a.path) == "playlist"
    ensures forall r :: NeedsRefresh(a, r) <==> Unauthorized(r)
  {
    FirstSegmentWithoutSlash("playlist");
    Path("playlist")
  }

  /** POST `playlist` with the argument as the body, unchanged. */
  function CreatePlaylist(newPlaylist: Body): (a: Args)
    ensures a.Fetch? && a.url == "playlist" && a.verb == Some("POST") && a.body == Some(newPlaylist)
    ensures FirstSegment(a.url) == "playlist"
    ensures !Exempt(a) && forall r :: NeedsRefresh(a, r) <==> Unauthorized(r)
  {
    FirstSegmentWithoutSlash("playlist");
    Fetch("playlist", Some("POST"), map[], Some(newPlaylist))
  }

  /** PUT `playlist/${playlist._id}` with the whole playlist as the body; the
      plain read of `_id` throws on a nullish argument, which the argument's
      type excludes. */
  function UpdatePlaylist(playlist: Json): (a: Args)
    requires !Nullish(playlist)
    ensures a.Fetch? && a.url == "playlist/" + Stringify(Prop(playlist, "_id")) && a.verb == Some("PUT")
    ensures a.body == Some(JsonBody(playlist))
    ensures FirstSegment(a.url) == "playlist"
    ensures !Exempt(a) && forall r :: NeedsRefresh(a, r) <==> Unauthorized(r)
  {
    Fetch(Under("playlist", Stringify(Prop(playlist, "_id"))), Some("PUT"), map[], Some(JsonBody(playlist)))
  }

  /** PATCH `playlist/${playlist._id}`. */
  function PatchPlaylist(playlist: Json): (a: Args)
    requires !Nullish(playlist)
    ensures a.Fetch? && a.url == "playlist/" + Stringify(Prop(playlist, "_id")) && a.verb == Some("PATCH")
    ensures a.body == Some(JsonBody(playlist))
    ensures FirstSegment(a.url) == "playlist"
    ensures !Exempt(a) && forall r :: NeedsRefresh(a, r) <==> Unauthorized(r)
  {
    Fetch(Under("playlist", Stringify(Prop(playlist, "_id"))), Some("PATCH"), map[], Some(JsonBody(playlist)))
  }

  /** DELETE `playlist/${id}`, without a body. */
  function DeletePlaylist(id: Json): (a: Args)
    ensures a.Fetch? && a.url == "playlist/" + Stringify(id) && a.verb == Some("DELETE") && a.body.None?
    ensures FirstSegment(a.url) == "playlist"
    ensures !Exempt(a) && forall r :: NeedsRefresh(a, r) <==> Unauthorized(r)
  {
    Fetch(Under("playlist", Stringify(id)), Some("DELETE"), map[], None)
  }
}

=== FILE: playlist_dialog.dfy ===
/** The add/edit playlist dialog: validation, reset values, the song
    selection with its checkboxes, and the payload a save hands to the parent. */
module PlaylistDialog {
  import opened Js

  /** The form values react-hook-form holds, as a plain object. */
  type Values = map<string, Json>

  /** `selectedSongs`: the ids picked in the multi-select. */
  datatype Selection = Selection(ids: seq<string>)

  /** The reset effect: the edited playlist's own fields, or empty name and description. */
  function ResetForm(playlistToEdit: Option<Values>): (v: Values)
    ensures playlistToEdit.Some? ==> v == playlistToEdit.value
    ensures playlistToEdit.None? ==> v.Keys == {"name", "description"}
                                     && v["name"] == JStr("") && v["description"] == JStr("")
  {
    match playlistToEdit
    case Some(p) => p
    case None => map["name" := JStr(""), "description" := JStr("")]
  }

  /** A required string: present, a string, and not empty. */
  predicate RequiredString(v: Json) {
    v.JStr? && v.s != ""
  }

  /** `playlistSchema`: both `name` and `description` are required strings. */
  function ValidationErrors(values: Values): (errors: set<string>)
    ensures "name" in errors <==> !RequiredString(Prop(JObj(values), "name"))
    ensures "description" in errors <==> !RequiredString(Prop(JObj(values), "description"))
    ensures errors <= {"name", "description"}
  {
    (if RequiredString(Prop(JObj(values), "name")) then {} else {"name"})
    + (if RequiredString(Prop(JObj(values), "description")) then {} else {"description"})
  }

  /** `handleSongSelection`: the new value replaces the whole selection. */
  function SelectSongs(current: Selection, value: seq<string>): (s: Selection)
    ensures s.ids == value
  {
    Selection(value)
  }

  /** The checkbox of a song is checked when its id is in the selection. */
  predicate Checked(songId: string, selection: Selection) {
    songId in selection.ids
  }

  lemma CheckedAfterSelection(current: Selection, value: seq<string>, songId: string)
    ensures Checked(songId, SelectSongs(current, value)) <==> exists i :: 0 <= i < |value| && value[i] == songId
  {
  }

  function IdsToJson(ids: seq<string>): (r: Json)
    ensures r.JArr? && |r.items| == |ids|
    ensures forall i :: 0 <= i < |ids| ==> r.items[i] == JStr(ids[i])
  {
    JArr(seq(|ids|, i requires 0 <= i < |ids| => JStr(ids[i])))
  }

  /** The `songs` array carries the selection without loss: two selections
      that encode alike are the same selection. */
  lemma IdsToJsonInjective(a: seq<string>, b: seq<string>)
    ensures IdsToJson(a) == IdsToJson(b) ==> a == b
  {
    if IdsToJson(a) == IdsToJson(b) {
      forall i | 0 <= i < |a|
        ensures a[i] == b[i]
      {
        assert JStr(a[i]) == IdsToJson(a).items[i] == IdsToJson(b).items[i] == JStr(b[i]);
      }
    }
  }

  datatype Saved = Saved(payload: Values, selection: Selection)

  /** `handleSavePlaylist`, reached only through a passing validation: copy the
      edited playlist's `_id` into the values, hand `{...data, songs: selection}`
      to the parent, and clear the selection. */
  function Save(values: Values, playlistToEdit: Option<Values>, selection: Selection): (r: Option<Saved>)
    ensures r.Some? <==> ValidationErrors(values) == {}
    ensures r.Some? ==> r.value.selection.ids == []
    ensures r.Some? ==> "songs" in r.value.payload && r.value.payload["songs"] == IdsToJson(selection.ids)
    ensures r.Some? && playlistToEdit.Some? ==>
              "_id" in r.value.payload && r.value.payload["_id"] == Prop(JObj(playlistToEdit.value), "_id")
    ensures r.Some? && playlistToEdit.None? ==>
              ("_id" in r.value.payload <==> "_id" in values)
              && ("_id" in values ==> r.value.payload["_id"] == values["_id"])
    ensures r.Some? ==> forall k :: k != "_id" && k != "songs" ==>
              (k in r.value.payload <==> k in values) && (k in values ==> r.value.payload[k] == values[k])
  {
    if ValidationErrors(values) != {} then None
    else
      var data := if playlistToEdit.Some? then values["_id" := Prop(JObj(playlistToEdit.value), "_id")] else values;
      Some(Saved(data["songs" := IdsToJson(selection.ids)], Selection([])))
  }

  /** After a save the payload's `songs` determine exactly the selection that
      was made, and no checkbox stays checked. */
  lemma SaveRoundTrip(values: Values, playlistToEdit: Option<Values>, selection: Selection, other: seq<string>, songId: string)
    requires ValidationErrors(values) == {}
    ensures var r := Save(values, playlistToEdit, selection);
            r.Some? && (r.value.payload["songs"] == IdsToJson(other) <==> other == selection.ids)
            && !Checked(songId, r.value.selection)
  {
    IdsToJsonInjective(other, selection.ids);
  }
}

=== FILE: playlist_reducer.dfy ===
/** The playlist cache slice. */
module PlaylistReducer {
  import opened Js
  import opened Entities
  import ListCache

  datatype PlaylistState = PlaylistState(playlists: seq<Playlist>)

  function PlaylistId(s: Playlist): string {
    s.id
  }

  function InitialState(): (s: PlaylistState)
    ensures s.playlists == []
  {
    PlaylistState([])
  }

  /** `addPlaylist`: the list becomes the payload, in payload order; an absent payload empties it. */
  function AddPlaylist(state: PlaylistState, payload: Option<seq<Playlist>>): (s: PlaylistState)
    ensures payload.None? ==> s.playlists == []
    ensures payload.Some? ==> s.playlists == payload.value
  {
    PlaylistState(ListCache.ReplaceAll(payload))
  }

  /** `removePlaylist`: drop every playlist whose id equals the payload. */
  function RemovePlaylist(state: PlaylistState, id: Option<string>): (s: PlaylistState)
    ensures |s.playlists| <= |state.playlists|
    ensures forall i :: 0 <= i < |s.playlists| ==> s.playlists[i] in state.playlists && Some(s.playlists[i].id) != id
    ensures forall i :: 0 <= i < |state.playlists| && Some(state.playlists[i].id) != id ==> state.playlists[i] in s.playlists
  {
    PlaylistState(ListCache.Without(state.playlists, PlaylistId, id))
  }

  /** The previous list plays no part in `addPlaylist`: it replaces, it does not append. */
  lemma AddPlaylistReplaces(s1: PlaylistState, s2: PlaylistState, payload: Option<seq<Playlist>>)
    ensures AddPlaylist(s1, payload) == AddPlaylist(s2, payload)
  {
  }

  lemma AddPlaylistIdempotent(state: PlaylistState, payload: Option<seq<Playlist>>)
    ensures AddPlaylist(AddPlaylist(state, payload), payload) == AddPlaylist(state, payload)
  {
  }

  /** The playlists `removePlaylist` keeps stay in their original relative order. */
  lemma RemovePlaylistKeepsOrder(a: seq<Playlist>, b: seq<Playlist>, id: Option<string>)
    ensures RemovePlaylist(PlaylistState(a + b), id).playlists == RemovePlaylist(PlaylistState(a), id).playlists + RemovePlaylist(PlaylistState(b), id).playlists
  {
    ListCache.WithoutConcat(a, b, PlaylistId, id);
  }

  /** An absent id (`undefined`) matches no playlist, so nothing changes. */
  lemma RemovePlaylistAbsentId(state: PlaylistState)
    ensures RemovePlaylist(state, None) == state
  {
    ListCache.WithoutUnmatched(state.playlists, PlaylistId, None);
  }

  lemma RemovePlaylistIdempotent(state: PlaylistState, id: Option<string>)
    ensures RemovePlaylist(RemovePlaylist(state, id), id) == RemovePlaylist(state, id)
  {
    ListCache.WithoutIdempotent(state.playlists, PlaylistId, id);
  }
}

=== FILE: post_card.dfy ===
/** A feed post card: whether the current user already likes the post, the
    like toggle and the comment box. The like and comment requests are
    abstract: each either succeeds or fails. */
module PostCard {
  import opened Js

  /** An entry of the post's `like.data`: the like's `_id` and its `userId._id`. */
  datatype Like = Like(id: string, userId: string)

  datatype CardState = CardState(liked: bool, commentInput: string)

  /** The request a handler sends. `DeleteLike` carries `iLiked?._id`. */
  datatype Request =
    | DeleteLike(likeId: Option<string>)
    | CreateLike(userId: string, postId: string)
    | CreateComment(userId: string, postId: string, content: string)

  /** What one handler does: the request it sends, the state after it, whether the parent reloads. */
  datatype Step = Step(request: Request, state: CardState, reloaded: bool)

  /** The first like whose author is the current user, if there is one. */
  function MyLike(likes: seq<Like>, me: string): (r: Option<Like>)
    ensures r.Some? <==> exists i :: 0 <= i < |likes| && likes[i].userId == me
    ensures r.Some? ==> exists i :: 0 <= i < |likes| && likes[i] == r.value && r.value.userId == me
                                  && forall j :: 0 <= j < i ==> likes[j].userId != me
    decreases |likes|
  {
    if |likes| == 0 then None
    else if likes[0].userId == me then Some(likes[0])
    else
      var r := MyLike(likes[1..], me);
      if r.Some? then
        ghost var i :| 0 <= i < |likes[1..]| && likes[1..][i] == r.value && r.value.userId == me
                       && forall j :: 0 <= j < i ==> likes[1..][j].userId != me;
        assert likes[i + 1] == r.value;
        r
      else
        r
  }

  /** The card's first state: liked when some like belongs to the current user; an empty comment box. */
  function InitialState(likes: seq<Like>, me: string): (s: CardState)
    ensures s.liked <==> exists i :: 0 <= i < |likes| && likes[i].userId == me
    ensures s.commentInput == ""
  {
    CardState(MyLike(likes, me).Some?, "")
  }

  function LikeId(found: Option<Like>): Option<string> {
    if found.Some? then Some(found.value.id) else None
  }

  /** `handleLike`: delete the found like when liked, create one otherwise; flip
      `liked` and reload only when the request succeeds. */
  function ToggleLike(s: CardState, likes: seq<Like>, me: string, postId: string, succeeded: bool): (st: Step)
    ensures s.liked ==> st.request == DeleteLike(LikeId(MyLike(likes, me)))
    ensures !s.liked ==> st.request == CreateLike(me, postId)
    ensures succeeded ==> st.state == s.(liked := !s.liked) && st.reloaded
    ensures !succeeded ==> st.state == s && !st.reloaded
  {
    var request := if s.liked then DeleteLike(LikeId(MyLike(likes, me))) else CreateLike(me, postId);
    if succeeded then Step(request, s.(liked := !s.liked), true) else Step(request, s, false)
  }

  /** The comment box's `onChange`. */
  function TypeComment(s: CardState, text: string): (t: CardState)
    ensures t.commentInput == text && t.liked == s.liked
  {
    s.(commentInput := text)
  }

  /** `handleCommentSubmit`: send the current input; clear it and reload only on success. */
  function SubmitComment(s: CardState, me: string, postId: string, succeeded: bool): (st: Step)
    ensures st.request == CreateComment(me, postId, s.commentInput)
    ensures succeeded ==> st.state == s.(commentInput := "") && st.reloaded
    ensures !succeeded ==> st.state == s && !st.reloaded
  {
    var request := CreateComment(me, postId, s.commentInput);
    if succeeded then Step(request, s.(commentInput := ""), true) else Step(request, s, false)
  }

  /** Two successful toggles come back to where they started, with a create and a delete in between. */
  lemma ToggleTwice(s: CardState, likes: seq<Like>, me: string, postId: string)
    ensures var first := ToggleLike(s, likes, me, postId, true);
            var second := ToggleLike(first.state, likes, me, postId, true);
            second.state == s && first.request.CreateLike? != second.request.CreateLike?
  {
  }
}

=== FILE: post_reducer.dfy ===
/** The post feed slice: the cached posts and a loading flag. */
module PostReducer {
  import opened Js
  import opened Entities
  import ListCache

  datatype PostState = PostState(posts: seq<Post>, loading: bool)

  /** The `{data: {data: posts}}` payload of `addPost`; every level may be missing. */
  datatype PostPage = PostPage(data: Option<seq<Post>>)
  datatype PostEnvelope = PostEnvelope(data: Option<PostPage>)

  function PostId(p: Post): string {
    p.id
  }

  /** `payload?.data?.data`. */
  function PostsOf(payload: Option<PostEnvelope>): (r: Option<seq<Post>>)
    ensures r.Some? <==> payload.Some? && payload.value.data.Some? && payload.value.data.value.data.Some?
    ensures r.Some? ==> r.value == payload.value.data.value.data.value
  {
    match payload
    case None => None
    case Some(envelope) =>
      match envelope.data
      case None => None
      case Some(page) => page.data
  }

  function InitialState(): (s: PostState)
    ensures s.posts == [] && !s.loading
  {
    PostState([], false)
  }

  /** `addPost`: the posts become `payload.data.data` in order, or nothing when
      any level is missing; `loading` is untouched. */
  function AddPost(state: PostState, payload: Option<PostEnvelope>): (s: PostState)
    ensures s.loading == state.loading
    ensures PostsOf(payload).Some? ==> s.posts == PostsOf(payload).value
    ensures PostsOf(payload).None? ==> s.posts == []
  {
    state.(posts := ListCache.ReplaceAll(PostsOf(payload)))
  }

  /** `removePost`: drop exactly the posts whose id equals the payload; `loading` is untouched. */
  function RemovePost(state: PostState, id: Option<string>): (s: PostState)
    ensures s.loading == state.loading
    ensures |s.posts| <= |state.posts|
    ensures forall i :: 0 <= i < |s.posts| ==> s.posts[i] in state.posts && Some(s.posts[i].id) != id
    ensures forall i :: 0 <= i < |state.posts| && Some(state.posts[i].id) != id ==> state.posts[i] in s.posts
  {
    state.(posts := ListCache.Without(state.posts, PostId, id))
  }

  /** `setLoading`: the flag changes, the posts do not. */
  function SetLoading(state: PostState, loading: bool): (s: PostState)
    ensures s.loading == loading && s.posts == state.posts
  {
    state.(loading := loading)
  }

  lemma AddPostIdempotent(state: PostState, payload: Option<PostEnvelope>)
    ensures AddPost(AddPost(state, payload), payload) == AddPost(state, payload)
  {
  }

  /** The posts `removePost` keeps stay in their original relative order. */
  lemma RemovePostKeepsOrder(a: seq<Post>, b: seq<Post>, loading: bool, id: Option<string>)
    ensures RemovePost(PostState(a + b, loading), id).posts
            == RemovePost(PostState(a, loading), id).posts + RemovePost(PostState(b, loading), id).posts
  {
    ListCache.WithoutConcat(a, b, PostId, id);
  }

  lemma RemovePostIdempotent(state: PostState, id: Option<string>)
    ensures RemovePost(RemovePost(state, id), id) == RemovePost(state, id)
  {
    ListCache.WithoutIdempotent(state.posts, PostId, id);
  }
}

=== FILE: song_api.dfy ===
/** The song endpoints. None of them lies under the `users` segment, so a
    401 on any of them goes down the refresh path. */
module SongApi {
  import opened Js
  import opened Gateway
  import Form

  function GetSongById(id: string): (a: Args)
    ensures a.Path? && a.path == "songs/" + id && FirstSegment(a.path) == "songs"
    ensures forall r :: NeedsRefresh(a, r) <==> Unauthorized(r)
  {
    Path(Under("songs", id))
  }

  function GetSongs(): (a: Args)
    ensures a.Path? && a.path == "songs" && FirstSegment(a.path) == "songs"
    ensures forall r :: NeedsRefresh(a, r) <==> Unauthorized(r)
  {
    FirstSegmentWithoutSlash("songs");
    Path("songs")
  }

  /** POST `songs` with the argument as the body, unchanged. */
  function CreateSong(newSong: Body): (a: Args)
    ensures a.Fetch? && a.url == "songs" && a.verb == Some("POST") && a.body == Some(newSong)
    ensures FirstSegment(a.url) == "songs"
    ensures !Exempt(a) && forall r :: NeedsRefresh(a, r) <==> Unauthorized(r)
  {
    FirstSegmentWithoutSlash("songs");
    Fetch("songs", Some("POST"), map[], Some(newSong))
  }

  /** PUT under `songs/`, addressed by how the form's `id` entry renders, with the form itself as the body. */
  function UpdateSong(form: Form.FormData): (a: Args)
    ensures a.Fetch? && a.url == "songs/" + Form.GetText(form, "id") && a.verb == Some("PUT")
    ensures a.body == Some(FormBody(form))
    ensures FirstSegment(a.url) == "songs"
    ensures !Exempt(a) && forall r :: NeedsRefresh(a, r) <==> Unauthorized(r)
  {
    Fetch(Under("songs", Form.GetText(form, "id")), Some("PUT"), map[], Some(FormBody(form)))
  }

  /** PATCH `songs/${song._id}`; the plain read of `_id` throws on a nullish
      argument, which the argument's type excludes. */
  function PatchSong(song: Json): (a: Args)
    requires !Nullish(song)
    ensures a.Fetch? && a.url == "songs/" + Stringify(Prop(song, "_id")) && a.verb == Some("PATCH")
    ensures a.body == Some(JsonBody(song))
    ensures FirstSegment(a.url) == "songs"
    ensures !Exempt(a) && forall r :: NeedsRefresh(a, r) <==> Unauthorized(r)
  {
    Fetch(Under("songs", Stringify(Prop(song, "_id"))), Some("PATCH"), map[], Some(JsonBody(song)))
  }

  /** DELETE `songs/${id}`, without a body. */
  function DeleteSong(id: Json): (a: Args)
    ensures a.Fetch? && a.url == "songs/" + Stringify(id) && a.verb == Some("DELETE") && a.body.None?
    ensures FirstSegment(a.url) == "songs"
    ensures !Exempt(a) && forall r :: NeedsRefresh(a, r) <==> Unauthorized(r)
  {
    Fetch(Under("songs", Stringify(id)), Some("DELETE"), map[], None)
  }
}

=== FILE: song_dialog.dfy ===
/** The add/edit song dialog: its validation rules, the values a reset puts
    in the form, the audio drop handler, and the `FormData` a submit builds. */
module SongDialog {
  import opened Js
  import opened Entities
  import opened Form
  import Gateway
  import SongApi
  import FileUploader

  /** The `audioUrl` form value: unset (`null`), the stored path of an edited song, or a dropped file. */
  datatype Audio = NoAudio | AudioPath(path: string) | AudioFile(file: File)

  predicate AudioTruthy(a: Audio) {
    a.AudioFile? || (a.AudioPath? && a.path != "")
  }

  /** `formData.append("audioUrl", value)`: a file stays a blob, a path becomes text. */
  function AudioValue(a: Audio): FormValue
    requires AudioTruthy(a)
  {
    if a.AudioFile? then Blob(a.file) else Text(a.path)
  }

  datatype SongForm = SongForm(title: string, artist: string, album: string, genre: string,
                               lyrics: string, audio: Audio)

  /** The reset effect: the edited song's values, or five empty strings and no audio. */
  function ResetForm(songToEdit: Option<Song>): (f: SongForm)
    ensures songToEdit.None? ==> f == SongForm("", "", "", "", "", NoAudio)
    ensures songToEdit.Some? ==>
              var s := songToEdit.value;
              f.title == s.title && f.artist == s.artist && f.album == s.album
              && f.genre == s.genre && f.lyrics == s.lyrics && f.audio == AudioPath(s.audioUrl)
  {
    match songToEdit
    case None => SongForm("", "", "", "", "", NoAudio)
    case Some(s) => SongForm(s.title, s.artist, s.album, s.genre, s.lyrics, AudioPath(s.audioUrl))
  }

  function Required(field: string, value: string): set<string> {
    if value == "" then {field} else {}
  }

  /** `songSchema`: every text field is a required string, and `audioUrl` must be set. */
  function ValidationErrors(f: SongForm): (errors: set<string>)
    ensures "title" in errors <==> f.title == ""
    ensures "artist" in errors <==> f.artist == ""
    ensures "album" in errors <==> f.album == ""
    ensures "genre" in errors <==> f.genre == ""
    ensures "lyrics" in errors <==> f.lyrics == ""
    ensures "audioUrl" in errors <==> f.audio.NoAudio?
    ensures errors <= {"title", "artist", "album", "genre", "lyrics", "audioUrl"}
  {
    Required("title", f.title) + Required("artist", f.artist) + Required("album", f.album)
    + Required("genre", f.genre) + Required("lyrics", f.lyrics)
    + (if f.audio.NoAudio? then {"audioUrl"} else {})
  }

  /** `onSubmit`: the five text fields in order, then `id` when editing, then
      `audioUrl` when it is truthy. */
  function BuildFormData(f: SongForm, songToEdit: Option<Song>): (fd: FormData)
    ensures |fd| == 5 + (if songToEdit.Some? then 1 else 0) + (if AudioTruthy(f.audio) then 1 else 0)
    ensures fd[0] == Entry("title", Text(f.title)) && fd[1] == Entry("artist", Text(f.artist))
            && fd[2] == Entry("album", Text(f.album)) && fd[3] == Entry("genre", Text(f.genre))
            && fd[4] == Entry("lyrics", Text(f.lyrics))
    ensures HasEntry(fd, "id") <==> songToEdit.Some?
    ensures songToEdit.Some? ==> fd[5] == Entry("id", Text(songToEdit.value.id))
    ensures HasEntry(fd, "audioUrl") <==> AudioTruthy(f.audio)
    ensures AudioTruthy(f.audio) ==> fd[|fd| - 1] == Entry("audioUrl", AudioValue(f.audio))
    ensures forall i :: 0 <= i < |fd| ==>
              fd[i].name in {"title", "artist", "album", "genre", "lyrics", "id", "audioUrl"}
  {
    var texts := Append(Append(Append(Append(Append([], "title", Text(f.title)), "artist", Text(f.artist)),
                        "album", Text(f.album)), "genre", Text(f.genre)), "lyrics", Text(f.lyrics));
    var withId := if songToEdit.Some? then Append(texts, "id", Text(songToEdit.value.id)) else texts;
    if AudioTruthy(f.audio) then Append(withId, "audioUrl", AudioValue(f.audio)) else withId
  }

  /** A submit: the schema gates `onSubmit`, which hands exactly one `FormData` to the parent. */
  function Submit(f: SongForm, songToEdit: Option<Song>): (handed: Option<FormData>)
    ensures handed.Some? <==> ValidationErrors(f) == {}
    ensures handed.Some? ==> handed.value == BuildFormData(f, songToEdit)
  {
    if ValidationErrors(f) == {} then Some(BuildFormData(f, songToEdit)) else None
  }

  /** `onDropFile` of the audio field: the first dropped file, or no change on an empty drop. */
  function DropAudio(f: SongForm, files: seq<File>): (g: SongForm)
    ensures |files| > 0 ==> g == f.(audio := AudioFile(files[0]))
    ensures |files| == 0 ==> g == f
  {
    if |files| > 0 then f.(audio := AudioFile(files[0])) else f
  }

  /** The form an edit submits updates the song being edited: `updateSong` reads
      the `id` entry back and addresses `songs/<that id>`. */
  lemma EditSubmitAddressesSong(f: SongForm, song: Song)
    ensures Get(BuildFormData(f, Some(song)), "id") == Some(Text(song.id))
    ensures SongApi.UpdateSong(BuildFormData(f, Some(song))).url == "songs/" + song.id
  {
    var fd := BuildFormData(f, Some(song));
    var r := Get(fd, "id");
    var i :| 0 <= i < |fd| && fd[i] == Entry("id", r.value) && forall j :: 0 <= j < i ==> fd[j].name != "id";
    assert i == 5;
  }

  /** A new song's form has no `id`, so `get("id")` reads as `null`. */
  lemma NewSongHasNoId(f: SongForm)
    ensures GetText(BuildFormData(f, None), "id") == "null"
  {
  }

  /** The audio field after a sequence of `onDropFile` calls. */
  function ApplyDrops(f: SongForm, calls: seq<seq<File>>): SongForm
    decreases |calls|
  {
    if |calls| == 0 then f else ApplyDrops(DropAudio(f, calls[0]), calls[1..])
  }

  /** Dropping files on the audio uploader sets the field to the first dropped
      file as soon as one of them is within the size limit, and leaves it alone otherwise. */
  lemma {:induction false} AudioAfterUpload(f: SongForm, previous: seq<FileUploader.Preview>,
                                             files: seq<File>, mint: nat -> Option<string>)
    ensures var g := ApplyDrops(f, FileUploader.OnDrop(previous, files, mint).onDropCalls);
            if FileUploader.CountWithin(files) > 0 then g == f.(audio := AudioFile(files[0])) else g == f
  {
    var calls := FileUploader.OnDrop(previous, files, mint).onDropCalls;
    if |calls| > 0 {
      RepeatedDrops(f.(audio := AudioFile(files[0])), calls[1..], files);
    }
  }

  /** Dropping the same non-empty list again changes nothing more. */
  lemma {:induction false} RepeatedDrops(f: SongForm, calls: seq<seq<File>>, files: seq<File>)
    requires |files| > 0 && f.audio == AudioFile(files[0])
    requires forall i :: 0 <= i < |calls| ==> calls[i] == files
    ensures ApplyDrops(f, calls) == f
    decreases |calls|
  {
    if |calls| > 0 {
      RepeatedDrops(DropAudio(f, calls[0]), calls[1..], files);
    }
  }
}

=== FILE: song_reducer.dfy ===
/** The song cache slice. */
module SongReducer {
  import opened Js
  import opened Entities
  import ListCache

  datatype SongState = SongState(songs: seq<Song>)

  function SongId(s: Song): string {
    s.id
  }

  function InitialState(): (s: SongState)
    ensures s.songs == []
  {
    SongState([])
  }

  /** `addSong`: the list becomes the payload, in payload order; an absent payload empties it. */
  function AddSong(state: SongState, payload: Option<seq<Song>>): (s: SongState)
    ensures payload.None? ==> s.songs == []
    ensures payload.Some? ==> s.songs == payload.value
  {
    SongState(ListCache.ReplaceAll(payload))
  }

  /** `removeSong`: drop every song whose id equals the payload. */
  function RemoveSong(state: SongState, id: Option<string>): (s: SongState)
    ensures |s.songs| <= |state.songs|
    ensures forall i :: 0 <= i < |s.songs| ==> s.songs[i] in state.songs && Some(s.songs[i].id) != id
    ensures forall i :: 0 <= i < |state.songs| && Some(state.songs[i].id) != id ==> state.songs[i] in s.songs
  {
    SongState(ListCache.Without(state.songs, SongId, id))
  }

  /** The previous list plays no part in `addSong`: it replaces, it does not append. */
  lemma AddSongReplaces(s1: SongState, s2: SongState, payload: Option<seq<Song>>)
    ensures AddSong(s1, payload) == AddSong(s2, payload)
  {
  }

  lemma AddSongIdempotent(state: SongState, payload: Option<seq<Song>>)
    ensures AddSong(AddSong(state, payload), payload) == AddSong(state, payload)
  {
  }

  /** The songs `removeSong` keeps stay in their original relative order. */
  lemma RemoveSongKeepsOrder(a: seq<Song>, b: seq<Song>, id: Option<string>)
    ensures RemoveSong(SongState(a + b), id).songs == RemoveSong(SongState(a), id).songs + RemoveSong(SongState(b), id).songs
  {
    ListCache.WithoutConcat(a, b, SongId, id);
  }

  /** An absent id (`undefined`) matches no song, so nothing changes. */
  lemma RemoveSongAbsentId(state: SongState)
    ensures RemoveSong(state, None) == state
  {
    ListCache.WithoutUnmatched(state.songs, SongId, None);
  }

  lemma RemoveSongIdempotent(state: SongState, id: Option<string>)
    ensures RemoveSong(RemoveSong(state, id), id) == RemoveSong(state, id)
  {
    ListCache.WithoutIdempotent(state.songs, SongId, id);
  }
}

=== FILE: user_api.dfy ===
/** The user endpoints: each endpoint's query builder, as the request
    descriptor it hands to the gateway. */
module UserApi {
  import opened Js
  import opened Gateway

  /** `users/${id}`, a plain string: a 401 on it always goes down the refresh path. */
  function GetUserById(id: string): (a: Args)
    ensures a.Path? && a.path == "users/" + id && FirstSegment(a.path) == "users"
    ensures forall r :: NeedsRefresh(a, r) <==> Unauthorized(r)
  {
    Path(Under("users", id))
  }

  function GetUsers(): (a: Args)
    ensures a.Path? && a.path == "users" && FirstSegment(a.path) == "users"
    ensures forall r :: NeedsRefresh(a, r) <==> Unauthorized(r)
  {
    FirstSegmentWithoutSlash("users");
    Path("users")
  }

  /** Registration: POST `users` with the new user as the body; exempt from refresh. */
  function CreateUser(newUser: Json): (a: Args)
    ensures a.Fetch? && a.url == "users" && a.verb == Some("POST")
    ensures a.body == Some(JsonBody(newUser))
    ensures Exempt(a) && forall r :: !NeedsRefresh(a, r)
  {
    FirstSegmentWithoutSlash("users");
    Fetch("users", Some("POST"), map[], Some(JsonBody(newUser)))
  }

  /** POST `users/login`; exempt from refresh. */
  function LoginUser(credentials: Json): (a: Args)
    ensures a.Fetch? && a.verb == Some("POST") && a.body == Some(JsonBody(credentials))
    ensures a.url == "users" + "/" + "login" && FirstSegment(a.url) == "users"
    ensures Exempt(a) && forall r :: !NeedsRefresh(a, r)
  {
    Fetch(Under("users", "login"), Some("POST"), map[], Some(JsonBody(credentials)))
  }

  /** POST `users/forgot-password`; exempt from refresh. */
  function ForgotPassword(request: Json): (a: Args)
    ensures a.Fetch? && a.verb == Some("POST") && a.body == Some(JsonBody(request))
    ensures a.url == "users" + "/" + "forgot-password" && FirstSegment(a.url) == "users"
    ensures Exempt(a) && forall r :: !NeedsRefresh(a, r)
  {
    Fetch(Under("users", "forgot-password"), Some("POST"), map[], Some(JsonBody(request)))
  }

  /** POST `users/reset-password`, carrying `Bearer ${newUser?.token}` from its own
      argument; exempt from refresh. */
  function ResetPassword(request: Json): (a: Args)
    ensures a.Fetch? && a.verb == Some("POST") && a.body == Some(JsonBody(request))
    ensures a.headers == map["Authorization" := Bearer(Prop(request, "token"))]
    ensures a.url == "users" + "/" + "reset-password" && FirstSegment(a.url) == "users"
    ensures Exempt(a) && forall r :: !NeedsRefresh(a, r)
  {
    Fetch(Under("users", "reset-password"), Some("POST"), map["Authorization" := Bearer(Prop(request, "token"))],
          Some(JsonBody(request)))
  }

  /** The reset request's own bearer goes out only when no access token is
      held; otherwise `prepareHeaders` replaces it with the access token. */
  lemma ResetPasswordBearer(request: Json, accessToken: Json)
    ensures var h := Sent(Call(ResetPassword(request), Attached(accessToken)));
            "Authorization" in h
            && h["Authorization"] == if Truthy(accessToken) then Bearer(accessToken) else Bearer(Prop(request, "token"))
  {
  }

  /** The path `users/${user._id}` shared by update and patch. The read of
      `_id` is not optional-chained, so a nullish argument throws; the
      argument's type excludes one. */
  function UserPath(user: Json): (p: string)
    requires !Nullish(user)
    ensures FirstSegment(p) == "users"
  {
    Under("users", Stringify(Prop(user, "_id")))
  }

  /** PUT `users/<_id>`: under the `users` segment but not exempt, because it is not a POST. */
  function UpdateUser(user: Json): (a: Args)
    requires !Nullish(user)
    ensures a.Fetch? && a.url == UserPath(user) && a.verb == Some("PUT") && a.body == Some(JsonBody(user))
    ensures FirstSegment(a.url) == "users"
    ensures !Exempt(a) && forall r :: NeedsRefresh(a, r) <==> Unauthorized(r)
  {
    Fetch(UserPath(user), Some("PUT"), map[], Some(JsonBody(user)))
  }

  /** PATCH `users/<_id>`: not exempt either. */
  function PatchUser(user: Json): (a: Args)
    requires !Nullish(user)
    ensures a.Fetch? && a.url == UserPath(user) && a.verb == Some("PATCH") && a.body == Some(JsonBody(user))
    ensures FirstSegment(a.url) == "users"
    ensures !Exempt(a) && forall r :: NeedsRefresh(a, r) <==> Unauthorized(r)
  {
    Fetch(UserPath(user), Some("PATCH"), map[], Some(JsonBody(user)))
  }

  /** A 401 on a login never touches the session: one call, the 401 handed back. */
  lemma LoginNeverRefreshes(credentials: Json, session: Session, script: Script)
    ensures var run := Execute(LoginUser(credentials), session, script);
            run.completion == Resolved(script.first) && |run.calls| == 1
            && run.dispatched == [] && run.stored == []
  {
  }
}
